=== FILE: README.md ===
# LAMMPS dump readers: parallel timestep schedule and CDL column builder

This project models, in Dafny, the pure logic inside two small programs that process LAMMPS molecular-dynamics dumps.

`pn_readdump.c` reads a NetCDF dump with PnetCDF, on `nprocs` MPI ranks.
- Rank `r` reads frames `[q*r, q*(r+1))`, where `q = NREC / nprocs`.
- Each frame is read through a window `(frame, 0, 0)` / `(1, NATOMS, 3)`.
- Each frame is meant to be reduced to its mean x-velocity. As written, the loop sums the x-slots of all `local_size` buffer slots and divides by `NATOMS`.
- Each rank sends a `(frame, value)` pair to rank 0 every round.
- Rank 0 is meant to store each gathered value at the index named by its frame tag. As written, it reads the pairs from its own two-float send buffer.
- `CHECK_ERR` counts the first failing library call in `nerrs` and jumps to the exit (the message it prints is not modelled).

The program as written has three defects, listed under "## Findings". `ReadDump.Run` and `Gather.TableAfter` model the corrected program:
- the buffer holds `3*local_size` floats, computed without truncation or wrap-around (`Reduction.LocalSize`, `Reduction.BufferFloats`);
- the reduction runs over the `NATOMS` atoms read;
- rank 0 reads the gathered buffer (`Gather.CoordinatorStep`).

The as-written versions are modelled beside them. The read loop `ReadDump.Rounds` takes the bound of the summing loop as a parameter. With bound `NATOMS` it is the corrected loop; with bound `local_size` it is the loop as written.

The model covers this in five modules:
- `Schedule`: the partition and the read windows.
- `Reduction`: the buffer sizing and the mean.
- `Gather`: the send buffer, the gather layout and rank 0's table.
- `ReadDump`: one rank's whole run, as the sequence of checked calls it issues against a storage oracle.
- `Results`: the `Option` and `Result` types the other modules share.

The model is sequential. It is a function of rank and round; the MPI gather is the concatenation of the ranks' pairs.

`nc_cdl_builder.cpp` reads `nTimeSteps` frames of a LAMMPS text dump. Each frame is nine header lines followed by one 14-field record per atom. The program appends comma-prefixed cells to six CDL column fragments.

The model covers this in three modules:
- `Decimal`: `>>` and `<<` on ints.
- `DumpText`: the dump as lines of whitespace-separated tokens, read by a cursor.
  - `>>` takes the next token across line ends.
  - `getline` moves to the next line.
  - A stream failure becomes a `Failure` result.
  - `Render` writes frames back as dump text, for round-trip proofs.
- `Cdl`: the six columns as strings.
  - A double reaches the output as `fmt` of the token it was read from.
  - `fmt` is a parameter that stands for C++ stream formatting.
  - `ColumnCells` splits a column back into its cells.

## Model

| member | source | states |
|---|---|---|
| Schedule.Frames | pn_readdump.c:121 | rank `rank` iterates exactly `q` frames, `q*rank + j` in round `j`, where `q = NREC / nprocs` uses integer division |
| Schedule.FramesAreRange | pn_readdump.c:111-121 | a frame is in rank `rank`'s list exactly when `q*rank <= f < q*(rank+1)` |
| Schedule.RanksDisjoint | pn_readdump.c:121 | no frame is read by two distinct ranks |
| Schedule.AdjacentRanksMeet | pn_readdump.c:111-121 | rank `r`'s end bound equals rank `r+1`'s start |
| Schedule.RanksCoverPrefix | pn_readdump.c:121 | some rank reads `f` exactly when `0 <= f < q*nprocs` |
| Schedule.FramesWithinRecords | pn_readdump.c:121 | every frame a rank below `nprocs` reads lies in `[0, NREC)` |
| Schedule.TailNeverRead | pn_readdump.c:121 | `q*nprocs = NREC - NREC mod nprocs`, and no rank reads any of the last `NREC mod nprocs` frames |
| Schedule.WindowsWithinExtent | pn_readdump.c:110-126 | each read window starts at `(frame, 0, 0)` and stays inside both the `NREC x NATOMS x 3` velocities and the `NREC x NATOMS` ids; it delivers `3*NATOMS` values from the first and `NATOMS` from the second |
| Reduction.Flatten | pn_readdump.c:124 | a frame read into `velin` puts atom `i`'s x, y and z at `3i`, `3i+1` and `3i+2` |
| Reduction.SumStride | pn_readdump.c:130-134 | the strided loop's result is the sum of `velin[3i]` for `i < n`, and every index it reads is inside a buffer of `3n` floats |
| Reduction.ReduceFrameIsMean | pn_readdump.c:124-135 | after a read delivers a frame, the corrected reduction is the frame's mean x-velocity, whatever the buffer held before; with no atoms it is the non-finite result of a division by zero |
| Reduction.MeanInvariantUnderReordering | pn_readdump.c:130-135 | the mean depends only on the multiset of atom velocities, not on their order |
| Reduction.MeanChangesUnderDuplication | pn_readdump.c:130-135 | duplicating an atom changes the mean, so each atom counts once |
| Reduction.MeanScenario | pn_readdump.c:130-135 | x-velocities 1, 2, 3 give 2; all zero give 0; no atoms give a non-finite value |
| Reduction.ReduceAsWrittenReadsStaleFloats | pn_readdump.c:94-96 | with `NATOMS = 1` and `NREC = 2` on one rank, the loop bound `local_size = 3` makes the as-written sum read two stale floats; the result is 11 where the mean is 1 |
| Reduction.ToInt32 | pn_readdump.c:94 | the `(int)` conversion is congruent to its argument modulo 2^32, lies in the int range, and is the identity on values that fit |
| Reduction.FrameFitsLocalBuffer | pn_readdump.c:94-96 | whenever a rank has a round, `local_size` (without truncation) exceeds `NATOMS`, so one frame's `3*NATOMS` floats fit the `3*local_size` buffer, computed without wrap-around |
| Reduction.LocalSizeAsWrittenAgrees | pn_readdump.c:94 | the as-written `local_size` equals the intended one exactly when `NATOMS*NREC/nprocs < 2^31 - 1`; at `2^31 - 1` the `+ 1` already wraps |
| Reduction.LocalSizeTruncates | pn_readdump.c:94 | with `NATOMS = 2^20`, `NREC = 2^12` and one rank, the as-written `local_size` is 1 instead of 2^32 + 1 |
| Reduction.ProgramSizesAgree | pn_readdump.c:94-96 | when `NATOMS*NREC/nprocs < 2^31 - 1` and `3*local_size` fits an int, the program's `local_size` and `local_size * 3` equal the intended sizes |
| Reduction.BufferFloatsWraps | pn_readdump.c:94-96 | with `NATOMS = 10^6`, `NREC = 1000` and one rank, `local_size = 10^9 + 1` is exact, but the `int` product `local_size * 3` wraps to a negative count; the intended buffer holds `3*10^9 + 3` floats |
| Reduction.OverwriteKeepsStale | pn_readdump.c:124 | a read of `NATOMS` atoms leaves the x-slots after them, and their sum, as they were |
| Reduction.ReduceAsWrittenAddsStale | pn_readdump.c:124-135 | as written, a round sends the frame's x-sum plus the stale x-slots up to `local_size`, over `NATOMS`; this is the mean exactly when those stale slots sum to 0 |
| Gather.GatherBuffer | pn_readdump.c:136-139 | the gathered buffer holds rank `i`'s frame tag at slot `2i` and its value at slot `2i+1` |
| Gather.Truncate | pn_readdump.c:148 | the `(int)` of a float holding a whole number is that number |
| Gather.PairsMapKeys | pn_readdump.c:146-149 | the slots written by one round are exactly the frames carried by its pairs |
| Gather.CollectGathered | pn_readdump.c:146-149 | when every tag is a frame below `NREC`, the corrected coordinator loop over the gathered buffer stores each pair's value at its frame and changes nothing else |
| Gather.AsWrittenOverrunsSendBuffer | pn_readdump.c:148 | with two or more ranks, the as-written loop indexes past the two-float `v_send` |
| Gather.AsWrittenAgreesForOneRank | pn_readdump.c:148 | with one rank, `v_send` is the whole gathered buffer and the as-written loop gives the intended table |
| Gather.FilledStep | pn_readdump.c:146-149 | round `j` adds exactly the slots `k*q + j`, one for each rank `k < nprocs`, to the filled set |
| Gather.TableAfterSchedule | pn_readdump.c:121-149 | with the corrected coordinator, after `j` rounds of ranks that complete their schedules, `avg_vel` holds exactly the slots `k*q + t` for ranks `k < nprocs` and rounds `t < j`, each with its own frame's value |
| Gather.FilledAllRounds | pn_readdump.c:121-149 | after all `q` rounds the filled slots are exactly `[0, q*nprocs)` |
| Gather.TwoRanksFourFrames | pn_readdump.c:121-149 | with two ranks and four frames, round 0 fills `{0, 2}` and round 1 completes `{0, 1, 2, 3}` |
| ReadDump.Execute | pn_readdump.c:17-25 | under CHECK_ERR at most one error is counted and no call beyond the plan is issued |
| ReadDump.ExecuteShortCircuits | pn_readdump.c:17-25 | the calls issued are a prefix of the plan; `nerrs` is 0 exactly when every planned call succeeds; otherwise the last issued call is the first that failed and all before it succeeded |
| ReadDump.ExecuteAppend | pn_readdump.c:17-25 | two call sequences back to back: the second runs only when the first counted no error |
| ReadDump.LoopCalls | pn_readdump.c:121-127 | round `t` issues the velocity read and then the id read, both with frame `t`'s window |
| ReadDump.RoundsFollowPlan | pn_readdump.c:121-127 | the reading loop issues exactly the CHECK_ERR run of its planned reads |
| ReadDump.RunFollowsPlan | pn_readdump.c:66-156 | a rank's run issues exactly the CHECK_ERR run of its plan: setup calls, two reads per round, close |
| ReadDump.ExitStatusReportsFailure | pn_readdump.c:17-177 | the exit status is 1 exactly when some planned call fails, equivalently when some issued call failed; the issued calls are a prefix of the plan |
| ReadDump.CloseOnlyAfterSuccess | pn_readdump.c:152-156 | the close is issued exactly when every call before it in the plan succeeded |
| ReadDump.PlanClosesOnce | pn_readdump.c:155 | the plan's only close is its last call |
| ReadDump.RoundsSendMeans | pn_readdump.c:121-140 | in the corrected loop (bound `NATOMS`), round `t` sends frame `t` of the schedule with that frame's mean; the loop fails exactly when it sends fewer pairs than it has frames |
| ReadDump.RoundsBoundChangesOnlyValues | pn_readdump.c:121-140 | the bound of the summing loop changes only the values sent: the calls issued, the failure and the number of pairs sent are the same for the as-written and the corrected loop |
| ReadDump.AsWrittenRound | pn_readdump.c:124-135 | one as-written round over a buffer of `local_size` slots sends the frame's x-sum plus the stale tail's x-sum, over `NATOMS` |
| ReadDump.RoundsSendAsWritten | pn_readdump.c:121-140 | in the as-written loop (bound `local_size`), round `t` sends frame `t` with its x-sum plus the x-sum of the buffer's stale tail, over `NATOMS`; the tail is the same in every round |
| ReadDump.CompletedRunShape | pn_readdump.c:94-156 | in the corrected program, a rank that exits with status 0 passed the setup, completed the loop and closed the file, and each frame fit its buffer |
| ReadDump.CompletedRunSends | pn_readdump.c:121-140 | in the corrected program, a rank that exits with status 0 sends, in round `t`, frame `q*rank + t` with that frame's mean |
| ReadDump.CompletedRunSendsAsWritten | pn_readdump.c:94-140 | for a rank that exits with status 0, the as-written loop issues the same calls, sends the same `q` frames, and sends for each its x-sum plus the stale tail of the freshly allocated buffer, over `NATOMS` |
| ReadDump.CompletedRunLockstep | pn_readdump.c:121-140 | every rank that exits with status 0 issues `11 + 2q` checked calls and sends `q` pairs, the same counts on every rank |
| ReadDump.RoundReadsFit | pn_readdump.c:94-126 | a round's velocity read delivers `3*NATOMS` floats inside the `NREC x NATOMS x 3` variable, fewer than the `3*local_size` of `velin`; its id read delivers `NATOMS` ints inside the `NREC x NATOMS` variable, fewer than the `local_size` of `idin` |
| ReadDump.PlanReadsWithinExtent | pn_readdump.c:110-126 | every read a rank below `nprocs` plans stays inside its variable, delivers one frame of it, and fits that variable's buffer in the corrected program |
| ReadDump.RunReadsWithinExtent | pn_readdump.c:110-126 | the same holds for every read a rank actually issues |
| ReadDump.GroupTable | pn_readdump.c:94-156 | in the corrected program, when every rank exits with status 0, rank 0's `avg_vel` holds exactly the frames below `NREC - NREC mod nprocs`, each with its own mean |
| Decimal.ParseInt | nc_cdl_builder.cpp:56-61 | `>>` into an int accepts only values in the int range |
| Decimal.ParseIntStr | nc_cdl_builder.cpp:67-79 | an int written by `<<` reads back as the same int |
| Decimal.IntStrInjective | nc_cdl_builder.cpp:67-79 | distinct ints are written as distinct texts |
| Decimal.ParseIntExamples | nc_cdl_builder.cpp:56-61 | the model accepts leading zeros and a plus sign in a whole-token int, and rejects a token holding a fraction or a bare sign |
| Decimal.ParseIntRejectsOverflow | nc_cdl_builder.cpp:56 | 2147483648 is rejected, not wrapped |
| DumpText.NextTokenTakesHead | nc_cdl_builder.cpp:56 | the model's token step, shared by every `>>`, succeeds exactly when a token is left; it takes the first token of the remaining stream and leaves the rest |
| DumpText.ReadTokensTakesPrefix | nc_cdl_builder.cpp:77 | the model's `k` double reads succeed exactly when `k` tokens remain, whatever those tokens are; they take the first `k` and leave the rest |
| DumpText.ReadIntTakesHead | nc_cdl_builder.cpp:56-61 | the model's `>>` into an int succeeds exactly when the whole next token is an int, and then consumes that one token |
| DumpText.ParseAtomTakesFourteen | nc_cdl_builder.cpp:77 | an atom record succeeds exactly when 14 tokens remain and the first two are ints; its fields are those tokens in the order id, type, x, y, z, vx, vy, vz, tau1..tau6 |
| DumpText.ParseAtomLine | nc_cdl_builder.cpp:77 | a line holding exactly an atom's 14 fields reads back as that atom |
| DumpText.ParseDump | nc_cdl_builder.cpp:27-50 | a successful read yields exactly `nTimeSteps` frames |
| DumpText.RepeatLines | nc_cdl_builder.cpp:50-87 | records on consecutive lines are read in order by the counted loop, and the cursor stops at the end of the last record's line |
| DumpText.ParseAtomsLines | nc_cdl_builder.cpp:75-83 | `nAtoms` atom lines read back as those atoms, in order |
| DumpText.ParseHeaderReads | nc_cdl_builder.cpp:52-71 | the header loop consumes nine lines; the timestep comes from line 2 and the atom count from line 4, and the other lines are ignored |
| DumpText.ParseHeaderRejectsTimestep | nc_cdl_builder.cpp:59-61 | a header whose second line does not start with an int fails on that token |
| DumpText.ParseHeaderAtEnd | nc_cdl_builder.cpp:59-61 | a file that ends before the timestep fails with end of input |
| DumpText.ParseFrameAt | nc_cdl_builder.cpp:50-85 | a rendered frame reads back as itself; the `getline` after the atoms moves reading to the line after the frame |
| DumpText.ParseFramesAt | nc_cdl_builder.cpp:50-87 | rendered frames read back in order |
| DumpText.DumpRoundTrip | nc_cdl_builder.cpp:27-87 | a file that begins with `nTimeSteps` rendered frames reads back as those frames, whatever follows |
| DumpText.RenderParses | nc_cdl_builder.cpp:27-87 | the text of `nTimeSteps` frames reads back as those frames |
| DumpText.ZeroAtomFrameSwallowsLine | nc_cdl_builder.cpp:75-85 | with an atom count of 0 no record is read, but the `getline` of line 85 still discards the line after the header |
| DumpText.ZeroAtomFrameSkipsToThird | nc_cdl_builder.cpp:52-85 | after a frame without atoms, the next timestep is read from the third line after the header; if that line starts with a non-int, the read fails on it |
| DumpText.ZeroAtomFrameDerailsNext | nc_cdl_builder.cpp:52-85 | a frame without atoms followed by any frame fails, on the token `ITEM:` |
| Cdl.AtomCells | nc_cdl_builder.cpp:78-82 | an atom adds one cell to id and type, three to positions and velocities, six to stresses and none to time |
| Cdl.WriteAtomCells | nc_cdl_builder.cpp:78-82 | writing one atom appends its cells to each column, each cell preceded by a comma; positions and velocities start on a new line |
| Cdl.WriteTimeCells | nc_cdl_builder.cpp:67 | a header appends `,<timestep>` to the time column and nothing to the others |
| Cdl.WriteFrameCells | nc_cdl_builder.cpp:50-85 | one frame appends its timestep cell and its atoms' cells, in input order |
| Cdl.WriteFramesCells | nc_cdl_builder.cpp:50-87 | the frames append their cells in frame order |
| Cdl.EmitLayout | nc_cdl_builder.cpp:40-94 | each column is its header written once, then all its comma-joined cells, then its terminator written once; the stress terminator closes with `}` |
| Cdl.IdCells | nc_cdl_builder.cpp:75-78 | the id column's cells are the ids of all atoms of all frames, in input order |
| Cdl.TypeCells | nc_cdl_builder.cpp:75-79 | the type column's cells are the types of all atoms, in input order |
| Cdl.TimeCells | nc_cdl_builder.cpp:45-94 | the time column's cells are the frames' timesteps, in frame order |
| Cdl.CellCounts | nc_cdl_builder.cpp:75-82 | id and type get one cell per atom over all frames; positions and velocities get three; stresses get six; time gets one per frame |
| Cdl.SplitJoined | nc_cdl_builder.cpp:78-82 | cells without commas, comma-joined, split back into the same cells |
| Cdl.ColumnReadsBack | nc_cdl_builder.cpp:40-94 | when no cell contains a comma, a column's text splits back into exactly its cells |
| Cdl.IntColumnsReadBack | nc_cdl_builder.cpp:67-94 | the id, type and time columns read back as the ints that were read from the dump |
| Cdl.BuildOfRender | nc_cdl_builder.cpp:27-94 | a dump rendered from `nTimeSteps` frames yields exactly those frames' columns |

## Left out

- MPI runtime, timing and progress output (pn_readdump.c:45-47, 117-118, 145, 158-173), and CHECK_ERR's error message (pn_readdump.c:21): these are concurrency, clocks and printing; the model keeps only which call failed and the count in `nerrs`. The gather is modelled as the per-round sequence of the ranks' pairs.
- PnetCDF calls (pn_readdump.c:66-91, 124-126, 155): these are a foreign library. `Storage` is an oracle that gives each call's return code, the dimension lengths and the velocities. The reads' id values are never used, so only the id read's return code is modelled.
- Group behaviour when some rank fails: the failing rank jumps to `MPI_Finalize`. The other ranks then wait in `MPI_Igather`, which the code does not handle. The model describes each rank's run on its own; `GroupTable` assumes every rank exits with status 0.
- ReadDump.RoundsSendMeans: this is the corrected loop (bound `NATOMS`). The values the as-written loop sends are those of `ReadDump.RoundsSendAsWritten`.
- ReadDump.CompletedRunShape: this is the corrected program, whose buffer is sized by `Reduction.LocalSize` and `Reduction.BufferFloats`. As written, the buffer can be smaller than a frame (see "## Findings").
- ReadDump.CompletedRunSends: this is the corrected program. A loop that sums to `local_size` sends the values of `ReadDump.CompletedRunSendsAsWritten` instead of the means.
- ReadDump.CompletedRunSendsAsWritten: it sums to the intended `local_size` over a buffer of the intended `3*local_size` floats, and takes the exit status from the corrected run. The program's own sizes equal these only under the bounds of `Reduction.ProgramSizesAgree`. Beyond them, the sizes truncate or wrap (see "## Findings"), and no sends are promised.
- ReadDump.GroupTable: this is the corrected program. As written, with two or more ranks and some rank having a round (`NREC >= nprocs`), rank 0 reads past `v_send` (`Gather.AsWrittenOverrunsSendBuffer`), so no table is promised.
- Gather.TableAfterSchedule: this holds for the corrected coordinator `Gather.CoordinatorStep`. The as-written `Gather.CoordinatorStepAsWritten` agrees with it only for one rank.
- ReadDump.PlanReadsWithinExtent: the buffer bound uses the intended `local_size`. As written, the truncated or wrapped sizes of the Findings can hold less than one frame, and the read then overruns the buffer. The model does not go past that point.
- ReadDump.RunReadsWithinExtent: the buffer bound uses the intended `local_size`, as for `ReadDump.PlanReadsWithinExtent`.
- ReadDump.RoundReadsFit: the buffer bound uses the intended `local_size`, as for `ReadDump.PlanReadsWithinExtent`.
- Reduction.ReduceFrameIsMean: float arithmetic is exact (`real`), not IEEE single precision. Only division by zero is kept apart, as `NonFinite`.
- Gather.CollectGathered: a frame tag is stored as the exact real of the frame number. A float holds frames above 2^24 inexactly, and that is not modelled.
- Option parsing, the usage text and the default file name (pn_readdump.c:27-63): these are I/O plumbing.
- Leaks of `coordin`, `idin`, `typin`, `avg_vel` and `v_recv`, and `free(velin)`: these are allocation plumbing.
- The CHECK_ERR after the loop (pn_readdump.c:152): it re-tests the last read's code, which was already checked, so it never fires.
- C++ stream formatting of doubles (nc_cdl_builder.cpp:80-82): each double is kept as the token it was read from, and output goes through the parameter `fmt`.
- Decimal.ParseInt: the model reads an int only from a whole token. C++ `>>` into an int also extracts a leading int from a longer token: it reads 1 from `1.5` and leaves `.5`, and it reads 12 from `12abc`. The same applies to `DumpText.ReadIntTakesHead` and `Decimal.ParseIntExamples`, which state the model's whole-token rule.
- Behaviour after a stream failure: the program keeps running with the failbit set and still writes whatever the failed reads left. The model stops with `Failure` and produces no columns.
- Line endings inside the text: the dump arrives already split into lines of tokens. `getline` moves to the start of the next line, and at the end of input it stays where it is.
- Console progress output and `clock()` timing (nc_cdl_builder.cpp:47-48, 63-66, 96-99); the unused `vel.dat` file, `vAVG`, `deltaT` and reference constants (nc_cdl_builder.cpp:22-26, 32, 73).
- 64-bit `MPI_Offset` arithmetic: `NATOMS * NREC` is assumed not to overflow 64 bits. Only the 32-bit `int` arithmetic of lines 94-96 is modelled. The conversion of a negative `int` count to `size_t` inside `malloc`'s argument is not modelled.
- DumpText.ParseAtomTakesFourteen, DumpText.ReadTokensTakesPrefix, DumpText.NextTokenTakesHead: reading a double never fails in the model, and the token step itself accepts any token; only the int reads check what they read. In the program, `>>` into a double fails on tokens such as `nan`, `inf` or `ITEM:`. The model accepts any token in the twelve double fields, and `DumpText.Renderable` does not require numerals there.

## Findings

| source | as written | input that shows it | evidently intended | confidence | as-written member | corrected member |
|---|---|---|---|---|---|---|
| pn_readdump.c:146-149 | rank 0 reads `v_send[i*2]` and `v_send[i*2+1]` for every `i < nprocs` | any run with `nprocs = 2` and `NREC >= 2`, so that a round exists: `i = 1` reads `v_send[2]` of a two-float array | read the gathered `v_recv`, which holds every rank's pair | high; not executed | Gather.CoordinatorStepAsWritten, Gather.AsWrittenOverrunsSendBuffer | Gather.CoordinatorStep, Gather.CollectGathered |
| pn_readdump.c:130-135 | the sum runs over `i < local_size` but is divided by `NATOMS` | `NATOMS = 1`, `NREC = 2`, one rank: `local_size = 3`, so two floats the read never wrote are added | sum the `NATOMS` x-velocities the read delivered | high; not executed | Reduction.ReduceAsWritten, Reduction.ReduceAsWrittenReadsStaleFloats, ReadDump.RoundsSendAsWritten | Reduction.ReduceFrame, Reduction.ReduceFrameIsMean, ReadDump.RoundsSendMeans |
| pn_readdump.c:94 | `(int)(NATOMS * NREC / nprocs) + 1` truncates the 64-bit quotient to an int, and the `+ 1` wraps at `2^31 - 1` | `NATOMS = 2^20`, `NREC = 2^12`, one rank: `local_size = 1`, and the buffer holds 3 floats for a frame of 3*2^20 | a buffer large enough for one frame | medium; not executed | Reduction.LocalSizeAsWritten, Reduction.LocalSizeTruncates | Reduction.LocalSize, Reduction.FrameFitsLocalBuffer |
| pn_readdump.c:95-96 | `local_size * 3` is an `int` product | `NATOMS = 10^6`, `NREC = 1000`, one rank: `local_size = 10^9 + 1` fits an int, but `local_size * 3` wraps to a negative count | compute the float count without wrap-around | medium; not executed | Reduction.BufferFloatsAsWritten, Reduction.BufferFloatsWraps | Reduction.BufferFloats, Reduction.FrameFitsLocalBuffer |

=== FILE: cdl.dfy ===
/** The six CDL column fragments nc_cdl_builder.cpp writes while it reads a
    text dump: each column is a prefix, then one comma-prefixed cell per value
    in reading order, then a terminator. Doubles reach the output as `fmt` of
    the token they were read from: `fmt` stands for the stream formatting of
    a double, which is not modelled. */
module Cdl {
  import opened Results
  import opened Decimal
  import opened DumpText

  /** The six output files, as the text written to each. */
  datatype Columns = Columns(id: string, typ: string, vel: string, pos: string, stress: string, time: string)

  datatype Column = IdColumn | TypeColumn | VelColumn | PosColumn | StressColumn | TimeColumn

  function Text(c: Columns, k: Column): string
  {
    match k
    case IdColumn => c.id
    case TypeColumn => c.typ
    case VelColumn => c.vel
    case PosColumn => c.pos
    case StressColumn => c.stress
    case TimeColumn => c.time
  }

  /** The header of each column, written once before the first frame
      (lines 40-45; `endl` is a newline). */
  function Prefix(k: Column): string
  {
    match k
    case IdColumn => "id = \n"
    case TypeColumn => "type = \n"
    case VelColumn => "velocities = "
    case PosColumn => "coordinates = "
    case StressColumn => "c_dstress = "
    case TimeColumn => "time = \n"
  }

  /** The end of each column, written once after the last frame
      (lines 89-94); the stress column also closes the data section. */
  function Terminator(k: Column): string
  {
    if k == StressColumn then ";\n } \n" else "; \n"
  }

  /** Emission, step by step as the program writes. The column headers of
      lines 40-45. */
  function Opened(): Columns
  {
    Columns("id = \n", "type = \n", "velocities = ", "coordinates = ", "c_dstress = ", "time = \n")
  }

  /** Line 67: the timestep, as soon as it is read. */
  function WriteTime(c: Columns, ts: int): Columns
  {
    c.(time := c.time + "," + IntStr(ts))
  }

  /** Lines 78-82: one atom record. */
  function WriteAtom(c: Columns, a: Atom, fmt: string -> string): Columns
  {
    c.(id := c.id + "," + IntStr(a.id),
       typ := c.typ + "," + IntStr(a.typ),
       pos := c.pos + ",\n" + fmt(a.x) + "," + fmt(a.y) + "," + fmt(a.z),
       vel := c.vel + ",\n" + fmt(a.vx) + "," + fmt(a.vy) + "," + fmt(a.vz),
       stress := c.stress + ",\n" + fmt(a.tau1) + "," + fmt(a.tau2) + "," + fmt(a.tau3)
                 + "," + fmt(a.tau4) + "," + fmt(a.tau5) + "," + fmt(a.tau6))
  }

  /** The atom loop of lines 75-83. */
  function WriteAtoms(c: Columns, atoms: seq<Atom>, fmt: string -> string): Columns
    decreases |atoms|
  {
    if atoms == [] then c else WriteAtoms(WriteAtom(c, atoms[0], fmt), atoms[1..], fmt)
  }

  function WriteFrame(c: Columns, f: Frame, fmt: string -> string): Columns
  {
    WriteAtoms(WriteTime(c, f.timestep), f.atoms, fmt)
  }

  /** The frame loop of line 50. */
  function WriteFrames(c: Columns, frames: seq<Frame>, fmt: string -> string): Columns
    decreases |frames|
  {
    if frames == [] then c else WriteFrames(WriteFrame(c, frames[0], fmt), frames[1..], fmt)
  }

  /** Lines 89-94. */
  function Closed(c: Columns): Columns
  {
    Columns(c.id + "; \n", c.typ + "; \n", c.vel + "; \n", c.pos + "; \n",
            c.stress + ";\n } \n", c.time + "; \n")
  }

  function Emit(frames: seq<Frame>, fmt: string -> string): Columns
  {
    Closed(WriteFrames(Opened(), frames, fmt))
  }

  /** The whole program: read `nTimeSteps` frames, write the columns. A read
      that fails yields the failure instead of columns. */
  function Build(lines: seq<Line>, fmt: string -> string): Result<Columns, ParseError>
  {
    match ParseDump(lines)
    case Success(frames) => Success(Emit(frames, fmt))
    case Failure(e) => Failure(e)
  }

  /** The columns as a whole are a prefix, comma-prefixed cells and a
      terminator. `Joined` writes each cell preceded by a comma. */
  function Joined(cells: seq<string>): string
    decreases |cells|
  {
    if cells == [] then "" else Joined(cells[..|cells| - 1]) + "," + cells[|cells| - 1]
  }

  /** The cells one atom contributes to column `k`, in the order of lines
      78-82; the `",\n"` before a position, velocity or stress triple is a
      comma followed by a cell that starts with a newline. */
  function AtomCells(k: Column, a: Atom, fmt: string -> string): (r: seq<string>)
    ensures |r| == match k
                   case IdColumn => 1
                   case TypeColumn => 1
                   case VelColumn => 3
                   case PosColumn => 3
                   case StressColumn => 6
                   case TimeColumn => 0
  {
    match k
    case IdColumn => [IntStr(a.id)]
    case TypeColumn => [IntStr(a.typ)]
    case VelColumn => ["\n" + fmt(a.vx), fmt(a.vy), fmt(a.vz)]
    case PosColumn => ["\n" + fmt(a.x), fmt(a.y), fmt(a.z)]
    case StressColumn => ["\n" + fmt(a.tau1), fmt(a.tau2), fmt(a.tau3), fmt(a.tau4), fmt(a.tau5), fmt(a.tau6)]
    case TimeColumn => []
  }

  function AtomsCells(k: Column, atoms: seq<Atom>, fmt: string -> string): seq<string>
    decreases |atoms|
  {
    if atoms == [] then [] else AtomCells(k, atoms[0], fmt) + AtomsCells(k, atoms[1..], fmt)
  }

  /** The cells a frame contributes: its timestep to the time column, its
      atoms to the others. */
  function FrameCells(k: Column, f: Frame, fmt: string -> string): seq<string>
  {
    (if k == TimeColumn then [IntStr(f.timestep)] else []) + AtomsCells(k, f.atoms, fmt)
  }

  function Cells(k: Column, frames: seq<Frame>, fmt: string -> string): seq<string>
    decreases |frames|
  {
    if frames == [] then [] else FrameCells(k, frames[0], fmt) + Cells(k, frames[1..], fmt)
  }

  lemma {:induction false} JoinedAppend(a: seq<string>, b: seq<string>)
    ensures Joined(a + b) == Joined(a) + Joined(b)
    decreases |b|
  {
    if b != [] {
      var b' := b[..|b| - 1];
      assert (a + b)[..|a + b| - 1] == a + b';
      JoinedAppend(a, b');
    } else {
      assert a + b == a;
    }
  }

  lemma JoinedOne(a: string)
    ensures Joined([a]) == "," + a
  {
    assert [a][..0] == [];
  }

  lemma JoinedThree(a: string, b: string, c: string)
    ensures Joined([a, b, c]) == "," + a + "," + b + "," + c
  {
    assert [a, b, c][..2] == [a, b] && [a, b][..1] == [a];
    JoinedOne(a);
  }

  lemma JoinedSix(a: string, b: string, c: string, d: string, e: string, f: string)
    ensures Joined([a, b, c, d, e, f]) == "," + a + "," + b + "," + c + "," + d + "," + e + "," + f
  {
    assert [a, b, c, d, e, f][..5] == [a, b, c, d, e];
    assert [a, b, c, d, e][..4] == [a, b, c, d];
    assert [a, b, c, d][..3] == [a, b, c];
    JoinedThree(a, b, c);
    assert Joined([a, b, c, d]) == "," + a + "," + b + "," + c + "," + d;
    assert Joined([a, b, c, d, e]) == "," + a + "," + b + "," + c + "," + d + "," + e;
  }

  /** `",\n"` and a value is a comma, then a cell that starts with a newline. */
  lemma CommaNewline(t: string, x: string)
    ensures t + ",\n" + x == t + "," + ("\n" + x)
  {
  }

  lemma WriteTripleCells(t: string, x: string, y: string, z: string)
    ensures t + ",\n" + x + "," + y + "," + z == t + Joined(["\n" + x, y, z])
  {
    JoinedThree("\n" + x, y, z);
    CommaNewline(t, x);
  }

  lemma WriteSixCells(t: string, x1: string, x2: string, x3: string, x4: string, x5: string, x6: string)
    ensures t + ",\n" + x1 + "," + x2 + "," + x3 + "," + x4 + "," + x5 + "," + x6
            == t + Joined(["\n" + x1, x2, x3, x4, x5, x6])
  {
    JoinedSix("\n" + x1, x2, x3, x4, x5, x6);
    CommaNewline(t, x1);
  }

  /** Writing an atom extends every column by that atom's cells. */
  lemma WriteAtomCells(c: Columns, a: Atom, fmt: string -> string, k: Column)
    ensures Text(WriteAtom(c, a, fmt), k) == Text(c, k) + Joined(AtomCells(k, a, fmt))
  {
    match k
    case IdColumn => JoinedOne(IntStr(a.id));
    case TypeColumn => JoinedOne(IntStr(a.typ));
    case VelColumn => WriteTripleCells(c.vel, fmt(a.vx), fmt(a.vy), fmt(a.vz));
    case PosColumn => WriteTripleCells(c.pos, fmt(a.x), fmt(a.y), fmt(a.z));
    case StressColumn =>
      WriteSixCells(c.stress, fmt(a.tau1), fmt(a.tau2), fmt(a.tau3), fmt(a.tau4), fmt(a.tau5), fmt(a.tau6));
    case TimeColumn =>
  }

  lemma {:induction false} WriteAtomsCells(c: Columns, atoms: seq<Atom>, fmt: string -> string, k: Column)
    ensures Text(WriteAtoms(c, atoms, fmt), k) == Text(c, k) + Joined(AtomsCells(k, atoms, fmt))
    decreases |atoms|
  {
    if atoms != [] {
      var c1 := WriteAtom(c, atoms[0], fmt);
      WriteAtomCells(c, atoms[0], fmt, k);
      WriteAtomsCells(c1, atoms[1..], fmt, k);
      JoinedAppend(AtomCells(k, atoms[0], fmt), AtomsCells(k, atoms[1..], fmt));
    }
  }

  /** Writing a timestep extends the time column by its cell and leaves the
      others as they are. */
  lemma WriteTimeCells(c: Columns, ts: int, k: Column)
    ensures Text(WriteTime(c, ts), k)
            == Text(c, k) + Joined(if k == TimeColumn then [IntStr(ts)] else [])
  {
    JoinedOne(IntStr(ts));
  }

  lemma WriteFrameCells(c: Columns, f: Frame, fmt: string -> string, k: Column)
    ensures Text(WriteFrame(c, f, fmt), k) == Text(c, k) + Joined(FrameCells(k, f, fmt))
  {
    var head: seq<string> := if k == TimeColumn then [IntStr(f.timestep)] else [];
    WriteTimeCells(c, f.timestep, k);
    WriteAtomsCells(WriteTime(c, f.timestep), f.atoms, fmt, k);
    JoinedAppend(head, AtomsCells(k, f.atoms, fmt));
  }

  lemma {:induction false} WriteFramesCells(c: Columns, frames: seq<Frame>, fmt: string -> string, k: Column)
    ensures Text(WriteFrames(c, frames, fmt), k) == Text(c, k) + Joined(Cells(k, frames, fmt))
    decreases |frames|
  {
    if frames != [] {
      WriteFrameCells(c, frames[0], fmt, k);
      WriteFramesCells(WriteFrame(c, frames[0], fmt), frames[1..], fmt, k);
      JoinedAppend(FrameCells(k, frames[0], fmt), Cells(k, frames[1..], fmt));
    }
  }

  /** Every column is its prefix, once, then its cells in reading order, then
      its terminator, once. */
  lemma EmitLayout(frames: seq<Frame>, fmt: string -> string, k: Column)
    ensures Text(Emit(frames, fmt), k) == Prefix(k) + Joined(Cells(k, frames, fmt)) + Terminator(k)
  {
    WriteFramesCells(Opened(), frames, fmt, k);
  }

  /** What the cells hold: the atoms of all frames, in reading order. */
  function AllAtoms(frames: seq<Frame>): seq<Atom>
    decreases |frames|
  {
    if frames == [] then [] else frames[0].atoms + AllAtoms(frames[1..])
  }

  /** The sum of the per-frame atom counts. */
  function TotalAtoms(frames: seq<Frame>): nat
    decreases |frames|
  {
    if frames == [] then 0 else |frames[0].atoms| + TotalAtoms(frames[1..])
  }

  function IntCells(vs: seq<int>): (r: seq<string>)
    ensures |r| == |vs|
  {
    seq(|vs|, i requires 0 <= i < |vs| => IntStr(vs[i]))
  }

  function Ids(atoms: seq<Atom>): (r: seq<int>)
    ensures |r| == |atoms| && forall i :: 0 <= i < |atoms| ==> r[i] == atoms[i].id
  {
    seq(|atoms|, i requires 0 <= i < |atoms| => atoms[i].id)
  }

  function Types(atoms: seq<Atom>): (r: seq<int>)
    ensures |r| == |atoms| && forall i :: 0 <= i < |atoms| ==> r[i] == atoms[i].typ
  {
    seq(|atoms|, i requires 0 <= i < |atoms| => atoms[i].typ)
  }

  function Timesteps(frames: seq<Frame>): (r: seq<int>)
    ensures |r| == |frames| && forall i :: 0 <= i < |frames| ==> r[i] == frames[i].timestep
  {
    seq(|frames|, i requires 0 <= i < |frames| => frames[i].timestep)
  }

  lemma IntCellsAppend(a: seq<int>, b: seq<int>)
    ensures IntCells(a + b) == IntCells(a) + IntCells(b)
  {
  }

  lemma {:induction false} AtomsCellsIds(atoms: seq<Atom>, fmt: string -> string)
    ensures AtomsCells(IdColumn, atoms, fmt) == IntCells(Ids(atoms))
    ensures AtomsCells(TypeColumn, atoms, fmt) == IntCells(Types(atoms))
    decreases |atoms|
  {
    if atoms != [] {
      AtomsCellsIds(atoms[1..], fmt);
      assert Ids(atoms) == [atoms[0].id] + Ids(atoms[1..]);
      assert Types(atoms) == [atoms[0].typ] + Types(atoms[1..]);
      IntCellsAppend([atoms[0].id], Ids(atoms[1..]));
      IntCellsAppend([atoms[0].typ], Types(atoms[1..]));
    }
  }

  lemma {:induction false} AtomsCellsTime(atoms: seq<Atom>, fmt: string -> string)
    ensures AtomsCells(TimeColumn, atoms, fmt) == []
    decreases |atoms|
  {
    if atoms != [] {
      AtomsCellsTime(atoms[1..], fmt);
    }
  }

  lemma IdsAppend(a: seq<Atom>, b: seq<Atom>)
    ensures Ids(a + b) == Ids(a) + Ids(b) && Types(a + b) == Types(a) + Types(b)
  {
  }

  lemma AllAtomsCons(frames: seq<Frame>)
    requires frames != []
    ensures AllAtoms(frames) == frames[0].atoms + AllAtoms(frames[1..])
  {
  }

  /** The id column holds one cell per atom, `<<` of its id, across all
      frames in reading order. */
  lemma {:induction false} IdCells(frames: seq<Frame>, fmt: string -> string)
    ensures Cells(IdColumn, frames, fmt) == IntCells(Ids(AllAtoms(frames)))
    decreases |frames|
  {
    if frames != [] {
      var f, rest := frames[0], frames[1..];
      IdCells(rest, fmt);
      AtomsCellsIds(f.atoms, fmt);
      AllAtomsCons(frames);
      IdsAppend(f.atoms, AllAtoms(rest));
      IntCellsAppend(Ids(f.atoms), Ids(AllAtoms(rest)));
    }
  }

  /** Likewise the type column, with each atom's type. */
  lemma {:induction false} TypeCells(frames: seq<Frame>, fmt: string -> string)
    ensures Cells(TypeColumn, frames, fmt) == IntCells(Types(AllAtoms(frames)))
    decreases |frames|
  {
    if frames != [] {
      var f, rest := frames[0], frames[1..];
      TypeCells(rest, fmt);
      AtomsCellsIds(f.atoms, fmt);
      AllAtomsCons(frames);
      IdsAppend(f.atoms, AllAtoms(rest));
      IntCellsAppend(Types(f.atoms), Types(AllAtoms(rest)));
    }
  }

  /** The time column holds one cell per frame, `<<` of its timestep, in
      frame order. */
  lemma {:induction false} TimeCells(frames: seq<Frame>, fmt: string -> string)
    ensures Cells(TimeColumn, frames, fmt) == IntCells(Timesteps(frames))
    decreases |frames|
  {
    if frames != [] {
      TimeCells(frames[1..], fmt);
      AtomsCellsTime(frames[0].atoms, fmt);
      assert Timesteps(frames) == [frames[0].timestep] + Timesteps(frames[1..]);
      IntCellsAppend([frames[0].timestep], Timesteps(frames[1..]));
    }
  }

  /** Position and velocity cells come three per atom, stress cells six. */
  lemma {:induction false} AtomsCellsCount(atoms: seq<Atom>, fmt: string -> string)
    ensures |AtomsCells(IdColumn, atoms, fmt)| == |atoms|
    ensures |AtomsCells(PosColumn, atoms, fmt)| == 3 * |atoms|
    ensures |AtomsCells(VelColumn, atoms, fmt)| == 3 * |atoms|
    ensures |AtomsCells(StressColumn, atoms, fmt)| == 6 * |atoms|
    decreases |atoms|
  {
    if atoms != [] {
      AtomsCellsCount(atoms[1..], fmt);
    }
  }

  /** The cell counts of the whole output: one id and one type per atom of
      every frame, three coordinates and three velocities, six stresses, and
      one time per frame. */
  lemma {:induction false} CellCounts(frames: seq<Frame>, fmt: string -> string)
    ensures |Cells(IdColumn, frames, fmt)| == TotalAtoms(frames)
    ensures |Cells(TypeColumn, frames, fmt)| == TotalAtoms(frames)
    ensures |Cells(PosColumn, frames, fmt)| == 3 * TotalAtoms(frames)
    ensures |Cells(VelColumn, frames, fmt)| == 3 * TotalAtoms(frames)
    ensures |Cells(StressColumn, frames, fmt)| == 6 * TotalAtoms(frames)
    ensures |Cells(TimeColumn, frames, fmt)| == |frames|
    decreases |frames|
  {
    if frames != [] {
      CellCounts(frames[1..], fmt);
      AtomsCellsCount(frames[0].atoms, fmt);
      AtomsCellsIds(frames[0].atoms, fmt);
      AtomsCellsTime(frames[0].atoms, fmt);
    }
  }

  /** Reading the columns back needs cells free of the separator. */
  predicate NoComma(s: string)
  {
    forall i :: 0 <= i < |s| ==> s[i] != ','
  }

  predicate CommaFree(cells: seq<string>)
  {
    forall i :: 0 <= i < |cells| ==> NoComma(cells[i])
  }

  /** The length of the text before the first comma. */
  function CellEnd(s: string): (r: nat)
    ensures r <= |s| && NoComma(s[..r]) && (r < |s| ==> s[r] == ',')
  {
    if s == [] || s[0] == ',' then 0 else 1 + CellEnd(s[1..])
  }

  /** The cells of comma-prefixed text; None when it does not start with a
      comma. */
  function SplitCells(s: string): Option<seq<string>>
    decreases |s|
  {
    if s == [] then Some([])
    else if s[0] != ',' then None
    else
      var n := CellEnd(s[1..]);
      match SplitCells(s[1 + n..])
      case None => None
      case Some(rest) => Some([s[1..1 + n]] + rest)
  }

  /** The cells of a whole column: its prefix and terminator removed. */
  function ColumnCells(k: Column, text: string): Option<seq<string>>
  {
    var p, t := Prefix(k), Terminator(k);
    if |text| >= |p| + |t| && text[..|p|] == p && text[|text| - |t|..] == t
    then SplitCells(text[|p|..|text| - |t|])
    else None
  }

  lemma JoinedCons(x: string, cells: seq<string>)
    ensures Joined([x] + cells) == "," + x + Joined(cells)
  {
    JoinedAppend([x], cells);
    assert ([x])[..0] == [];
  }

  lemma CellEndOf(x: string, y: string)
    requires NoComma(x) && (y == [] || y[0] == ',')
    ensures CellEnd(x + y) == |x|
    decreases |x|
  {
    if x != [] {
      assert (x + y)[1..] == x[1..] + y;
      CellEndOf(x[1..], y);
    }
  }

  /** One comma-free cell in front of comma-prefixed text. */
  lemma SplitCons(x: string, y: string, rest: seq<string>)
    requires NoComma(x) && (y == [] || y[0] == ',') && SplitCells(y) == Some(rest)
    ensures SplitCells("," + x + y) == Some([x] + rest)
  {
    var s := "," + x + y;
    assert s[1..] == x + y;
    CellEndOf(x, y);
    assert s[1 + |x|..] == y && s[1..1 + |x|] == x;
  }

  /** Comma-prefixed text is empty or starts with a comma. */
  lemma JoinedStartsWithComma(cells: seq<string>)
    ensures Joined(cells) == [] || Joined(cells)[0] == ','
  {
    if cells != [] {
      JoinedCons(cells[0], cells[1..]);
      assert [cells[0]] + cells[1..] == cells;
    }
  }

  /** Comma-free cells are recovered from their comma-prefixed text. */
  lemma {:induction false} SplitJoined(cells: seq<string>)
    requires CommaFree(cells)
    ensures SplitCells(Joined(cells)) == Some(cells)
    decreases |cells|
  {
    if cells != [] {
      var x, rest := cells[0], cells[1..];
      assert [x] + rest == cells;
      assert CommaFree(rest) by {
        forall i | 0 <= i < |rest|
          ensures NoComma(rest[i])
        {
          assert rest[i] == cells[1 + i];
        }
      }
      SplitJoined(rest);
      JoinedCons(x, rest);
      JoinedStartsWithComma(rest);
      SplitCons(x, Joined(rest), rest);
    }
  }

  /** Every column written for frames with comma-free cells reads back as
      those cells. */
  lemma ColumnReadsBack(frames: seq<Frame>, fmt: string -> string, k: Column)
    requires CommaFree(Cells(k, frames, fmt))
    ensures ColumnCells(k, Text(Emit(frames, fmt), k)) == Some(Cells(k, frames, fmt))
  {
    var p, t, body := Prefix(k), Terminator(k), Joined(Cells(k, frames, fmt));
    EmitLayout(frames, fmt, k);
    var text := p + body + t;
    assert text[..|p|] == p && text[|text| - |t|..] == t && text[|p|..|text| - |t|] == body;
    SplitJoined(Cells(k, frames, fmt));
  }

  /** `<<` of an int never writes a comma. */
  lemma IntCellsCommaFree(vs: seq<int>)
    ensures CommaFree(IntCells(vs))
  {
    forall i | 0 <= i < |vs|
      ensures NoComma(IntCells(vs)[i])
    {
      var s := IntStr(vs[i]);
      assert forall j :: 0 <= j < |s| ==> s[j] == '-' || IsDigit(s[j]);
    }
  }

  /** `>>` of each cell. */
  function ParseInts(cells: seq<string>): Option<seq<int>>
    decreases |cells|
  {
    if cells == [] then Some([])
    else match (ParseInt(cells[0]), ParseInts(cells[1..]))
      case (Some(v), Some(vs)) => Some([v] + vs)
      case _ => None
  }

  predicate AllInt32(vs: seq<int>)
  {
    forall i :: 0 <= i < |vs| ==> IsInt32(vs[i])
  }

  lemma {:induction false} ParseIntCells(vs: seq<int>)
    requires AllInt32(vs)
    ensures ParseInts(IntCells(vs)) == Some(vs)
    decreases |vs|
  {
    if vs != [] {
      ParseIntStr(vs[0]);
      ParseIntCells(vs[1..]);
      assert IntCells(vs)[1..] == IntCells(vs[1..]);
      assert [vs[0]] + vs[1..] == vs;
    }
  }

  /** The int columns read back: the ids and the types of all atoms in
      reading order, and the timesteps in frame order. */
  lemma IntColumnsReadBack(frames: seq<Frame>, fmt: string -> string)
    requires AllInt32(Ids(AllAtoms(frames))) && AllInt32(Types(AllAtoms(frames)))
    requires AllInt32(Timesteps(frames))
    ensures var out := Emit(frames, fmt);
            && ColumnCells(IdColumn, out.id) == Some(IntCells(Ids(AllAtoms(frames))))
            && ColumnCells(TypeColumn, out.typ) == Some(IntCells(Types(AllAtoms(frames))))
            && ColumnCells(TimeColumn, out.time) == Some(IntCells(Timesteps(frames)))
    ensures ParseInts(IntCells(Ids(AllAtoms(frames)))) == Some(Ids(AllAtoms(frames)))
    ensures ParseInts(IntCells(Types(AllAtoms(frames)))) == Some(Types(AllAtoms(frames)))
    ensures ParseInts(IntCells(Timesteps(frames))) == Some(Timesteps(frames))
  {
    IdCells(frames, fmt);
    TypeCells(frames, fmt);
    TimeCells(frames, fmt);
    IntCellsCommaFree(Ids(AllAtoms(frames)));
    IntCellsCommaFree(Types(AllAtoms(frames)));
    IntCellsCommaFree(Timesteps(frames));
    ColumnReadsBack(frames, fmt, IdColumn);
    ColumnReadsBack(frames, fmt, TypeColumn);
    ColumnReadsBack(frames, fmt, TimeColumn);
    ParseIntCells(Ids(AllAtoms(frames)));
    ParseIntCells(Types(AllAtoms(frames)));
    ParseIntCells(Timesteps(frames));
  }

  /** The whole program: the text of `nTimeSteps` renderable frames builds
      the columns of those frames. */
  lemma BuildOfRender(frames: seq<Frame>, fmt: string -> string)
    requires |frames| == NTimeSteps && AllRenderable(frames)
    ensures Build(Render(frames), fmt) == Success(Emit(frames, fmt))
  {
    RenderParses(frames);
  }
}

=== FILE: decimal.dfy ===
/** Decimal integers as nc_cdl_builder.cpp's `>>` reads them into an `int`
    and `<<` writes them back: an optional sign followed by decimal digits,
    within the 32-bit range of `int`. */
module Decimal {
  import opened Results

  const Int32Min: int := -0x8000_0000
  const Int32Max: int := 0x7fff_ffff

  predicate IsInt32(i: int)
  {
    Int32Min <= i <= Int32Max
  }

  predicate IsDigit(c: char)
  {
    '0' <= c <= '9'
  }

  predicate AllDigits(s: string)
  {
    forall k :: 0 <= k < |s| ==> IsDigit(s[k])
  }

  function DigitChar(d: nat): (c: char)
    requires d < 10
    ensures IsDigit(c) && c as int - '0' as int == d
  {
    ('0' as int + d) as char
  }

  /** The number a string of decimal digits denotes. */
  function DigitsValue(s: string): nat
    requires AllDigits(s)
  {
    if s == [] then 0 else DigitsValue(s[..|s| - 1]) * 10 + (s[|s| - 1] as int - '0' as int)
  }

  /** The decimal digits of n, without leading zeros. */
  function NatStr(n: nat): (s: string)
    ensures |s| >= 1 && AllDigits(s)
    ensures s[0] == '0' ==> n == 0
  {
    if n < 10 then [DigitChar(n)] else NatStr(n / 10) + [DigitChar(n % 10)]
  }

  /** `<<` of an int: a minus sign for negative values, then the digits. */
  function IntStr(i: int): (s: string)
    ensures |s| >= 1
    ensures forall k :: 0 <= k < |s| ==> s[k] == '-' || IsDigit(s[k])
    ensures (s[0] == '-') == (i < 0)
  {
    if i < 0 then "-" + NatStr(-i) else NatStr(i)
  }

  /** `>>` into an int, on a whole whitespace-delimited token: an optional
      sign and at least one digit; None when the token is not an integer or
      its value does not fit an int. */
  function ParseInt(tok: string): (r: Option<int>)
    ensures r.Some? ==> IsInt32(r.value)
  {
    if |tok| >= 2 && (tok[0] == '-' || tok[0] == '+') && AllDigits(tok[1..]) then
      var v: int := if tok[0] == '-' then -(DigitsValue(tok[1..]) as int) else DigitsValue(tok[1..]);
      if IsInt32(v) then Some(v) else None
    else if |tok| >= 1 && AllDigits(tok) && IsInt32(DigitsValue(tok)) then Some(DigitsValue(tok))
    else None
  }

  lemma {:induction false} NatStrValue(n: nat)
    ensures DigitsValue(NatStr(n)) == n
  {
    if n >= 10 {
      NatStrValue(n / 10);
      var s := NatStr(n);
      assert s[..|s| - 1] == NatStr(n / 10);
    }
  }

  /** Reading back what `<<` wrote gives the same int. */
  lemma ParseIntStr(i: int)
    requires IsInt32(i)
    ensures ParseInt(IntStr(i)) == Some(i)
  {
    if i < 0 {
      NatStrValue(-i);
      assert IntStr(i)[1..] == NatStr(-i);
    } else {
      NatStrValue(i);
    }
  }

  /** Distinct ints are written as distinct strings. */
  lemma IntStrInjective(a: int, b: int)
    requires IntStr(a) == IntStr(b)
    ensures a == b
  {
    if a < 0 {
      NatStrValue(-a);
      NatStrValue(-b);
      assert IntStr(a)[1..] == NatStr(-a);
      assert IntStr(b)[1..] == NatStr(-b);
    } else {
      NatStrValue(a);
      NatStrValue(b);
    }
  }

  /** Leading zeros and a plus sign are accepted; fractions and a bare sign
      are not. */
  lemma ParseIntExamples()
    ensures ParseInt("007") == Some(7)
    ensures ParseInt("+5") == Some(5)
    ensures ParseInt("-12") == Some(-12)
    ensures ParseInt("1.5") == None
    ensures ParseInt("-") == None
  {
    assert "007"[..2] == "00" && "00"[..1] == "0" && "0"[..0] == "";
    assert "+5"[1..] == "5" && "5"[..0] == "";
    assert "-12"[1..] == "12" && "12"[..1] == "1" && "1"[..0] == "";
    assert !IsDigit("1.5"[1]);
  }

  /** One past the largest int is rejected rather than wrapped. */
  lemma ParseIntRejectsOverflow()
    ensures ParseInt("2147483648") == None
  {
    var s := "2147483648";
    assert DigitsValue(s[..1]) == 2 by { assert s[..1][..0] == ""; }
    assert DigitsValue(s[..2]) == 21 by { assert s[..2][..1] == s[..1]; }
    assert DigitsValue(s[..3]) == 214 by { assert s[..3][..2] == s[..2]; }
    assert DigitsValue(s[..4]) == 2147 by { assert s[..4][..3] == s[..3]; }
    assert DigitsValue(s[..5]) == 21474 by { assert s[..5][..4] == s[..4]; }
    assert DigitsValue(s[..6]) == 214748 by { assert s[..6][..5] == s[..5]; }
    assert DigitsValue(s[..7]) == 2147483 by { assert s[..7][..6] == s[..6]; }
    assert DigitsValue(s[..8]) == 21474836 by { assert s[..8][..7] == s[..7]; }
    assert DigitsValue(s[..9]) == 214748364 by { assert s[..9][..8] == s[..8]; }
    assert s[..|s| - 1] == s[..9];
  }
}

=== FILE: dumptext.dfy ===
/** The LAMMPS text dump as nc_cdl_builder.cpp reads it. The input is a
    sequence of lines, each already split into its whitespace-separated
    tokens; `>>` takes the next token wherever it is, crossing line ends,
    and `getline` discards the rest of the current line. Floating-point
    fields stay the tokens they were read from. */
module DumpText {
  import opened Results
  import opened Decimal

  /** Line 27: the number of frames the program reads. */
  const NTimeSteps: nat := 2

  /** Lines 52-71: each frame starts with nine header lines. */
  const HeaderLines: nat := 9

  /** Line 77: id, type, x, y, z, vx, vy, vz and six stress components. */
  const FieldsPerAtom: nat := 14

  /** The tokens of one input line. */
  type Line = seq<string>

  /** The read position: a line and a token index within it. */
  datatype Cursor = Cursor(line: nat, col: nat)

  datatype ParseError = EndOfInput | NotAnInteger(token: string)

  /** The tokens from `c` on, in reading order. */
  function Stream(lines: seq<Line>, c: Cursor): seq<string>
    decreases |lines| - c.line
  {
    if c.line >= |lines| then []
    else if c.col >= |lines[c.line]| then Stream(lines, Cursor(c.line + 1, 0))
    else lines[c.line][c.col..] + Stream(lines, Cursor(c.line + 1, 0))
  }

  /** The token step every `>>` shares: skip line ends until a token is
      found. It accepts any token; only `ReadInt` checks what it read. */
  function NextToken(lines: seq<Line>, c: Cursor): Result<(string, Cursor), ParseError>
    decreases |lines| - c.line
  {
    if c.line >= |lines| then Failure(EndOfInput)
    else if c.col < |lines[c.line]| then Success((lines[c.line][c.col], Cursor(c.line, c.col + 1)))
    else NextToken(lines, Cursor(c.line + 1, 0))
  }

  /** `getline`: move to the start of the next line; at the end of input
      there is nothing left to discard. */
  function SkipLine(lines: seq<Line>, c: Cursor): (r: Cursor)
    ensures c.line < |lines| ==> r == Cursor(c.line + 1, 0)
    ensures c.line >= |lines| ==> Stream(lines, r) == []
  {
    if c.line < |lines| then Cursor(c.line + 1, 0) else c
  }

  /** `>>` into an int. */
  function ReadInt(lines: seq<Line>, c: Cursor): Result<(int, Cursor), ParseError>
  {
    var t :- NextToken(lines, c);
    match ParseInt(t.0)
    case None => Failure(NotAnInteger(t.0))
    case Some(v) => Success((v, t.1))
  }

  /** `k` successive `>>` into doubles, each kept as its token. The model
      accepts any token here, where the program's `>>` would fail on a
      non-numeral such as `ITEM:`. */
  function ReadTokens(lines: seq<Line>, c: Cursor, k: nat): (r: Result<(seq<string>, Cursor), ParseError>)
    ensures r.Success? ==> |r.value.0| == k
    decreases k
  {
    if k == 0 then Success(([], c))
    else
      var t :- NextToken(lines, c);
      var rest :- ReadTokens(lines, t.1, k - 1);
      Success(([t.0] + rest.0, rest.1))
  }

  /** The values the header loop keeps. */
  datatype Header = Header(timestep: int, natoms: int)

  /** Header line n before its `getline`: line 4 reads the atom count, line 2
      the timestep. */
  function HeaderStep(lines: seq<Line>, c: Cursor, n: nat, h: Header): Result<(Header, Cursor), ParseError>
  {
    if n == 4 then
      var p :- ReadInt(lines, c);
      Success((h.(natoms := p.0), p.1))
    else if n == 2 then
      var p :- ReadInt(lines, c);
      Success((h.(timestep := p.0), p.1))
    else Success((h, c))
  }

  /** The loop `for (n = 1; n < 10; n++)` of lines 52-71. */
  function HeaderLoop(lines: seq<Line>, c: Cursor, n: nat, h: Header): Result<(Header, Cursor), ParseError>
    decreases 10 - n
  {
    if n >= 10 then Success((h, c))
    else
      var p :- HeaderStep(lines, c, n, h);
      HeaderLoop(lines, SkipLine(lines, p.1), n + 1, p.0)
  }

  function ParseHeader(lines: seq<Line>, c: Cursor): Result<(Header, Cursor), ParseError>
  {
    HeaderLoop(lines, c, 1, Header(0, 0))
  }

  /** One atom record, fields in the order of line 77. */
  datatype Atom = Atom(id: int, typ: int, x: string, y: string, z: string,
                       vx: string, vy: string, vz: string,
                       tau1: string, tau2: string, tau3: string, tau4: string, tau5: string, tau6: string)

  /** The atom with the given id and type whose twelve remaining fields are
      `v`, in the order of line 77. */
  function AtomOf(id: int, typ: int, v: seq<string>): Atom
    requires |v| == 12
  {
    Atom(id, typ, v[0], v[1], v[2], v[3], v[4], v[5], v[6], v[7], v[8], v[9], v[10], v[11])
  }

  /** Line 77: two ints, then twelve doubles. */
  function ParseAtom(lines: seq<Line>, c: Cursor): Result<(Atom, Cursor), ParseError>
  {
    var i :- ReadInt(lines, c);
    var t :- ReadInt(lines, i.1);
    var f :- ReadTokens(lines, t.1, 12);
    Success((AtomOf(i.0, t.0, f.0), f.1))
  }

  /** A reader of one record: from a cursor, the record and the cursor after it. */
  type Reader<T> = Cursor -> Result<(T, Cursor), ParseError>

  /** `step` run `n` times from `c`, stopping at the first failure; a count of
      zero or less reads nothing. The frame loop of line 50 and the atom loop
      of line 75 both have this shape. */
  function Repeat<T>(step: Reader<T>, c: Cursor, n: int): (r: Result<(seq<T>, Cursor), ParseError>)
    ensures r.Success? ==> |r.value.0| == if n <= 0 then 0 else n
    decreases if n <= 0 then 0 else n
  {
    if n <= 0 then Success(([], c))
    else
      var a :- step(c);
      var rest :- Repeat(step, a.1, n - 1);
      Success(([a.0] + rest.0, rest.1))
  }

  function AtomReader(lines: seq<Line>): Reader<Atom>
  {
    c => ParseAtom(lines, c)
  }

  /** The loop `for (n = 0; n < nAtoms; n++)` of lines 75-83. */
  function ParseAtoms(lines: seq<Line>, c: Cursor, n: int): Result<(seq<Atom>, Cursor), ParseError>
  {
    Repeat(AtomReader(lines), c, n)
  }

  datatype Frame = Frame(timestep: int, atoms: seq<Atom>)

  /** One pass of the loop at line 50: header, atoms, and the `getline` of line 85. */
  function ParseFrame(lines: seq<Line>, c: Cursor): Result<(Frame, Cursor), ParseError>
  {
    var h :- ParseHeader(lines, c);
    var a :- ParseAtoms(lines, h.1, h.0.natoms);
    Success((Frame(h.0.timestep, a.0), SkipLine(lines, a.1)))
  }

  function FrameReader(lines: seq<Line>): Reader<Frame>
  {
    c => ParseFrame(lines, c)
  }

  function ParseFrames(lines: seq<Line>, c: Cursor, k: nat): Result<(seq<Frame>, Cursor), ParseError>
  {
    Repeat(FrameReader(lines), c, k)
  }

  /** The whole read: `nTimeSteps` frames from the start of the file. */
  function ParseDump(lines: seq<Line>): (r: Result<seq<Frame>, ParseError>)
    ensures r.Success? ==> |r.value| == NTimeSteps
  {
    var p :- ParseFrames(lines, Cursor(0, 0), NTimeSteps);
    Success(p.0)
  }

  /** `>>` takes the first token of the stream and leaves the rest; it fails
      only when no token is left. */
  lemma {:induction false} NextTokenTakesHead(lines: seq<Line>, c: Cursor)
    ensures NextToken(lines, c).Success? <==> Stream(lines, c) != []
    ensures NextToken(lines, c).Failure? ==> NextToken(lines, c).error == EndOfInput
    ensures NextToken(lines, c).Success? ==>
              && NextToken(lines, c).value.0 == Stream(lines, c)[0]
              && Stream(lines, NextToken(lines, c).value.1) == Stream(lines, c)[1..]
    decreases |lines| - c.line
  {
    if c.line < |lines| {
      var next := Cursor(c.line + 1, 0);
      if c.col < |lines[c.line]| {
        var l := lines[c.line];
        if c.col + 1 < |l| {
          assert l[c.col..][1..] == l[c.col + 1..];
        } else {
          assert l[c.col..] == [l[c.col]];
        }
      } else {
        NextTokenTakesHead(lines, next);
      }
    }
  }

  /** `k` reads of doubles take the first k tokens of the stream. */
  lemma {:induction false} ReadTokensTakesPrefix(lines: seq<Line>, c: Cursor, k: nat)
    ensures ReadTokens(lines, c, k).Success? <==> |Stream(lines, c)| >= k
    ensures ReadTokens(lines, c, k).Success? ==>
              && ReadTokens(lines, c, k).value.0 == Stream(lines, c)[..k]
              && Stream(lines, ReadTokens(lines, c, k).value.1) == Stream(lines, c)[k..]
    decreases k
  {
    if k > 0 {
      NextTokenTakesHead(lines, c);
      if NextToken(lines, c).Success? {
        var t := NextToken(lines, c).value;
        ReadTokensTakesPrefix(lines, t.1, k - 1);
        var st := Stream(lines, c);
        if |st| >= k {
          assert [st[0]] + st[1..][..k - 1] == st[..k];
          assert st[1..][k - 1..] == st[k..];
        }
      }
    }
  }

  /** The 14 fields of an atom in the order line 77 reads them, as `<<`
      would write them. */
  function AtomFields(a: Atom): (r: seq<string>)
    ensures |r| == FieldsPerAtom
  {
    [IntStr(a.id), IntStr(a.typ), a.x, a.y, a.z, a.vx, a.vy, a.vz,
     a.tau1, a.tau2, a.tau3, a.tau4, a.tau5, a.tau6]
  }

  /** `>>` into an int takes the first token of the stream and fails when it
      is missing or not an integer. */
  lemma ReadIntTakesHead(lines: seq<Line>, c: Cursor)
    ensures var st := Stream(lines, c);
            ReadInt(lines, c).Success? <==> st != [] && ParseInt(st[0]).Some?
    ensures var st := Stream(lines, c);
            ReadInt(lines, c).Success? ==>
              st != [] && ParseInt(st[0]).Some? &&
              ReadInt(lines, c).value.0 == ParseInt(st[0]).value &&
              Stream(lines, ReadInt(lines, c).value.1) == st[1..]
  {
    NextTokenTakesHead(lines, c);
  }

  /** An atom record is read exactly when 14 tokens remain and the first two
      are integers; it is those 14 tokens in the order of line 77, and the
      stream continues after them. */
  lemma ParseAtomTakesFourteen(lines: seq<Line>, c: Cursor)
    ensures var st := Stream(lines, c);
            ParseAtom(lines, c).Success? <==>
              |st| >= FieldsPerAtom && ParseInt(st[0]).Some? && ParseInt(st[1]).Some?
    ensures var st := Stream(lines, c);
            ParseAtom(lines, c).Success? ==>
              && |st| >= FieldsPerAtom && ParseInt(st[0]).Some? && ParseInt(st[1]).Some?
              && ParseAtom(lines, c).value.0 == AtomOf(ParseInt(st[0]).value, ParseInt(st[1]).value, st[2..FieldsPerAtom])
              && Stream(lines, ParseAtom(lines, c).value.1) == st[FieldsPerAtom..]
  {
    var st := Stream(lines, c);
    ReadIntTakesHead(lines, c);
    if ReadInt(lines, c).Success? {
      var c1 := ReadInt(lines, c).value.1;
      ReadIntTakesHead(lines, c1);
      assert Stream(lines, c1) == st[1..];
      if ReadInt(lines, c1).Success? {
        var c2 := ReadInt(lines, c1).value.1;
        assert Stream(lines, c2) == st[2..];
        ReadTokensTakesPrefix(lines, c2, 12);
        if |st| >= FieldsPerAtom {
          assert st[2..][..12] == st[2..14];
          assert st[2..][12..] == st[14..];
        }
      }
    }
  }

  /** `k` reads of doubles that stay within one line. */
  lemma {:induction false} ReadTokensInLine(lines: seq<Line>, m: nat, col: nat, k: nat)
    requires m < |lines| && col + k <= |lines[m]|
    ensures ReadTokens(lines, Cursor(m, col), k) == Success((lines[m][col..col + k], Cursor(m, col + k)))
    decreases k
  {
    if k > 0 {
      assert NextToken(lines, Cursor(m, col)) == Success((lines[m][col], Cursor(m, col + 1)));
      ReadTokensInLine(lines, m, col + 1, k - 1);
      var rest := ReadTokens(lines, Cursor(m, col + 1), k - 1);
      assert ReadTokens(lines, Cursor(m, col), k) == Success(([lines[m][col]] + rest.value.0, rest.value.1));
      assert [lines[m][col]] + lines[m][col + 1..col + k] == lines[m][col..col + k];
    } else {
      assert lines[m][col..col] == [];
    }
  }

  /** A line holding exactly an atom's 14 fields reads back as that atom,
      leaving the cursor at the line's end. */
  lemma ParseAtomLine(lines: seq<Line>, m: nat, a: Atom)
    requires m < |lines| && lines[m] == AtomFields(a)
    requires IsInt32(a.id) && IsInt32(a.typ)
    ensures ParseAtom(lines, Cursor(m, 0)) == Success((a, Cursor(m, FieldsPerAtom)))
  {
    ParseIntStr(a.id);
    ParseIntStr(a.typ);
    var c1, c2 := Cursor(m, 1), Cursor(m, 2);
    assert ReadInt(lines, Cursor(m, 0)) == Success((a.id, c1));
    assert ReadInt(lines, c1) == Success((a.typ, c2));
    ReadTokensInLine(lines, m, 2, 12);
    AtomOfFields(a);
  }

  lemma AtomOfFields(a: Atom)
    ensures AtomOf(a.id, a.typ, AtomFields(a)[2..]) == a
  {
  }

  /** At the end of a line, the next atom starts on the following line. */
  lemma ParseAtomAtLineEnd(lines: seq<Line>, m: nat, col: nat)
    requires m < |lines| && col == |lines[m]|
    ensures ParseAtom(lines, Cursor(m, col)) == ParseAtom(lines, Cursor(m + 1, 0))
  {
    var c, d := Cursor(m, col), Cursor(m + 1, 0);
    assert NextToken(lines, c) == NextToken(lines, d);
    assert ReadInt(lines, c) == ReadInt(lines, d);
  }

  predicate AtomsInt32(atoms: seq<Atom>)
  {
    forall i :: 0 <= i < |atoms| ==> IsInt32(atoms[i].id) && IsInt32(atoms[i].typ)
  }

  /** `block` occurs in `lines` from line `at` on. */
  predicate Contains(lines: seq<Line>, at: nat, block: seq<Line>)
  {
    at + |block| <= |lines| && forall i :: 0 <= i < |block| ==> lines[at + i] == block[i]
  }

  /** One line per atom record. */
  function AtomLines(atoms: seq<Atom>): (r: seq<Line>)
    ensures |r| == |atoms|
    ensures forall i :: 0 <= i < |atoms| ==> r[i] == AtomFields(atoms[i])
  {
    seq(|atoms|, i requires 0 <= i < |atoms| => AtomFields(atoms[i]))
  }

  /** One more record in front of a successful read of the rest. */
  lemma RepeatCons<T>(step: Reader<T>, c: Cursor, n: int, a: T, c1: Cursor, rest: seq<T>, c2: Cursor)
    requires n >= 1
    requires step(c) == Success((a, c1))
    requires Repeat(step, c1, n - 1) == Success((rest, c2))
    ensures Repeat(step, c, n) == Success(([a] + rest, c2))
  {
  }

  /** Two cursors from which `step` reads the same are interchangeable. */
  lemma RepeatSameStart<T>(step: Reader<T>, c: Cursor, d: Cursor, n: int)
    requires n >= 1 && step(c) == step(d)
    ensures Repeat(step, c, n) == Repeat(step, d, n)
  {
  }

  /** Lines `m`, `m + 1`, ... each hold one record of `width` tokens, which
      `step` reads as the next of `xs`; from the end of each such line `step`
      reads as from the start of the next. */
  ghost predicate RecordLinesAt<T>(step: Reader<T>, m: nat, xs: seq<T>, width: nat)
    decreases |xs|
  {
    xs == [] ||
    (&& step(Cursor(m, 0)) == Success((xs[0], Cursor(m, width)))
     && step(Cursor(m, width)) == step(Cursor(m + 1, 0))
     && RecordLinesAt(step, m + 1, xs[1..], width))
  }

  /** Records on consecutive lines read back in order; the cursor stops at
      the end of the last record's line, `last`. */
  lemma {:induction false} RepeatLines<T>(step: Reader<T>, m: nat, xs: seq<T>, width: nat, n: int, last: nat)
    requires n == |xs| >= 1 && last == m + n - 1 && RecordLinesAt(step, m, xs, width)
    ensures Repeat(step, Cursor(m, 0), n) == Success((xs, Cursor(last, width)))
    decreases n
  {
    var rest := xs[1..];
    assert [xs[0]] + rest == xs;
    if rest == [] {
      RepeatCons(step, Cursor(m, 0), 1, xs[0], Cursor(m, width), [], Cursor(m, width));
    } else {
      RepeatLines(step, m + 1, rest, width, n - 1, last);
      RepeatSameStart(step, Cursor(m, width), Cursor(m + 1, 0), n - 1);
      RepeatCons(step, Cursor(m, 0), n, xs[0], Cursor(m, width), rest, Cursor(last, width));
    }
  }

  /** The atom lines after the first are atom lines too. */
  lemma ContainsRest(lines: seq<Line>, m: nat, atoms: seq<Atom>)
    requires |atoms| >= 1 && AtomsInt32(atoms)
    requires Contains(lines, m, AtomLines(atoms))
    ensures AtomsInt32(atoms[1..]) && Contains(lines, m + 1, AtomLines(atoms[1..]))
  {
    var rest := atoms[1..];
    forall i | 0 <= i < |rest|
      ensures lines[m + 1 + i] == AtomLines(rest)[i]
    {
      assert lines[m + (1 + i)] == AtomLines(atoms)[1 + i];
    }
  }

  /** A line holding an atom's fields reads as that atom, and from its end
      reading carries on at the next line. */
  lemma AtomLineReads(lines: seq<Line>, m: nat, a: Atom)
    requires m < |lines| && lines[m] == AtomFields(a)
    requires IsInt32(a.id) && IsInt32(a.typ)
    ensures AtomReader(lines)(Cursor(m, 0)) == Success((a, Cursor(m, FieldsPerAtom)))
    ensures AtomReader(lines)(Cursor(m, FieldsPerAtom)) == AtomReader(lines)(Cursor(m + 1, 0))
  {
    ParseAtomLine(lines, m, a);
    ParseAtomAtLineEnd(lines, m, FieldsPerAtom);
  }

  /** Atom lines from line `m` on are records for the atom reader. */
  lemma {:induction false} AtomLinesRead(lines: seq<Line>, m: nat, atoms: seq<Atom>)
    requires AtomsInt32(atoms) && Contains(lines, m, AtomLines(atoms))
    ensures RecordLinesAt(AtomReader(lines), m, atoms, FieldsPerAtom)
    decreases |atoms|
  {
    if atoms != [] {
      assert lines[m + 0] == AtomLines(atoms)[0];
      AtomLineReads(lines, m, atoms[0]);
      ContainsRest(lines, m, atoms);
      AtomLinesRead(lines, m + 1, atoms[1..]);
    }
  }

  /** Atom records on consecutive lines read back in order; the cursor stops
      at the end of the last record's line, `last`. */
  lemma ParseAtomsLines(lines: seq<Line>, m: nat, atoms: seq<Atom>, n: int, last: nat)
    requires n == |atoms| >= 1 && last == m + n - 1 && AtomsInt32(atoms)
    requires Contains(lines, m, AtomLines(atoms))
    ensures ParseAtoms(lines, Cursor(m, 0), n) == Success((atoms, Cursor(last, FieldsPerAtom)))
  {
    AtomLinesRead(lines, m, atoms);
    RepeatLines(AtomReader(lines), m, atoms, FieldsPerAtom, n, last);
  }

  /** A line whose first token is the int `v`. */
  predicate IntLine(line: Line, v: int)
  {
    line != [] && ParseInt(line[0]) == Some(v)
  }

  /** The header values line `n` of the loop at lines 52-71 leaves behind,
      starting from `h`, when the file's timestep is `ts` and its atom count
      `na`. */
  function HeaderAfter(n: nat, h: Header, ts: int, na: int): Header
  {
    if n == 4 then h.(natoms := na) else if n == 2 then h.(timestep := ts) else h
  }

  /** One pass of the header loop on a line that exists: `>>` on lines 2 and
      4 takes the line's first token, and `getline` moves to the next line. */
  lemma HeaderLoopStep(lines: seq<Line>, l: nat, n: nat, h: Header, ts: int, na: int)
    requires 1 <= n < 10 && l < |lines|
    requires n == 2 ==> IntLine(lines[l], ts)
    requires n == 4 ==> IntLine(lines[l], na)
    ensures HeaderLoop(lines, Cursor(l, 0), n, h)
            == HeaderLoop(lines, Cursor(l + 1, 0), n + 1, HeaderAfter(n, h, ts, na))
  {
    if n == 2 || n == 4 {
      assert NextToken(lines, Cursor(l, 0)) == Success((lines[l][0], Cursor(l, 1)));
      assert HeaderStep(lines, Cursor(l, 0), n, h) == Success((HeaderAfter(n, h, ts, na), Cursor(l, 1)));
    } else {
      assert HeaderStep(lines, Cursor(l, 0), n, h) == Success((h, Cursor(l, 0)));
    }
  }

  /** From header line `n`, read at line `l`, the loop ends at line `end`
      with the timestep and atom count from the lines `>>` reads. */
  lemma {:induction false} HeaderLoopFrom(lines: seq<Line>, l: nat, n: nat, h: Header, ts: int, na: int, end: nat)
    requires 1 <= n <= 10 && end == l + 10 - n && end <= |lines|
    requires n <= 2 ==> IntLine(lines[l + 2 - n], ts)
    requires n <= 4 ==> IntLine(lines[l + 4 - n], na)
    requires n > 2 ==> h.timestep == ts
    requires n > 4 ==> h.natoms == na
    ensures HeaderLoop(lines, Cursor(l, 0), n, h) == Success((Header(ts, na), Cursor(end, 0)))
    decreases 10 - n
  {
    if n < 10 {
      HeaderLoopStep(lines, l, n, h, ts, na);
      HeaderLoopFrom(lines, l + 1, n + 1, HeaderAfter(n, h, ts, na), ts, na, end);
    }
  }

  /** The header is nine lines; the timestep is the first token of its second
      line and the atom count the first token of its fourth, and reading
      continues at the line after the header. */
  lemma ParseHeaderReads(lines: seq<Line>, l: nat, ts: int, na: int, end: nat)
    requires end == l + HeaderLines && end <= |lines|
    requires IntLine(lines[l + 1], ts) && IntLine(lines[l + 3], na)
    ensures ParseHeader(lines, Cursor(l, 0)) == Success((Header(ts, na), Cursor(end, 0)))
  {
    HeaderLoopFrom(lines, l, 1, Header(0, 0), ts, na, end);
  }

  /** A timestep line whose first token is not an int stops the read. */
  lemma ParseHeaderRejectsTimestep(lines: seq<Line>, l: nat)
    requires l + 1 < |lines| && lines[l + 1] != [] && ParseInt(lines[l + 1][0]).None?
    ensures ParseHeader(lines, Cursor(l, 0)) == Failure(NotAnInteger(lines[l + 1][0]))
  {
    HeaderLoopStep(lines, l, 1, Header(0, 0), 0, 0);
    assert NextToken(lines, Cursor(l + 1, 0)) == Success((lines[l + 1][0], Cursor(l + 1, 1)));
  }

  /** A file that ends before the timestep stops the read. */
  lemma ParseHeaderAtEnd(lines: seq<Line>, l: nat)
    requires l + 1 >= |lines|
    ensures ParseHeader(lines, Cursor(l, 0)) == Failure(EndOfInput)
  {
    var c := SkipLine(lines, Cursor(l, 0));
    assert HeaderStep(lines, Cursor(l, 0), 1, Header(0, 0)) == Success((Header(0, 0), Cursor(l, 0)));
    assert c.line >= |lines|;
    assert NextToken(lines, c) == Failure(EndOfInput);
  }

  /** `block` occurs at `at`, and so do its two parts. */
  lemma ContainsAppend(lines: seq<Line>, at: nat, a: seq<Line>, b: seq<Line>, mid: nat)
    requires mid == at + |a| && Contains(lines, at, a + b)
    ensures Contains(lines, at, a) && Contains(lines, mid, b)
  {
    forall i | 0 <= i < |a|
      ensures lines[at + i] == a[i]
    {
      assert (a + b)[i] == a[i];
    }
    forall i | 0 <= i < |b|
      ensures lines[mid + i] == b[i]
    {
      assert lines[at + (|a| + i)] == (a + b)[|a| + i];
    }
  }

  /** The nine header lines of a LAMMPS text dump frame; the box bounds are
      not read and are written as the unit box. */
  function HeaderText(ts: int, na: int): (r: seq<Line>)
    ensures |r| == HeaderLines && r[1] == [IntStr(ts)] && r[3] == [IntStr(na)]
  {
    [["ITEM:", "TIMESTEP"], [IntStr(ts)],
     ["ITEM:", "NUMBER", "OF", "ATOMS"], [IntStr(na)],
     ["ITEM:", "BOX", "BOUNDS", "pp", "pp", "pp"], ["0", "1"], ["0", "1"], ["0", "1"],
     ["ITEM:", "ATOMS", "id", "type", "x", "y", "z", "vx", "vy", "vz",
      "c_dstress[1]", "c_dstress[2]", "c_dstress[3]", "c_dstress[4]", "c_dstress[5]", "c_dstress[6]"]]
  }

  /** A frame as a text dump holds it: the header, then one line per atom. */
  function RenderFrame(f: Frame): (r: seq<Line>)
    ensures |r| == HeaderLines + |f.atoms|
  {
    HeaderText(f.timestep, |f.atoms|) + AtomLines(f.atoms)
  }

  /** Frames one after another. */
  function Render(frames: seq<Frame>): seq<Line>
  {
    if frames == [] then [] else RenderFrame(frames[0]) + Render(frames[1..])
  }

  /** A frame the reader gets back from its text: at least one atom, and
      timestep, atom count, ids and types within the range of an int. */
  predicate Renderable(f: Frame)
  {
    |f.atoms| >= 1 && IsInt32(f.timestep) && IsInt32(|f.atoms|) && AtomsInt32(f.atoms)
  }

  /** A rendered frame reads back as itself; the `getline` of line 85 ends the
      last atom line, so reading continues on the line after the frame. */
  lemma ParseFrameAt(lines: seq<Line>, l: nat, f: Frame, next: nat)
    requires Renderable(f) && next == l + HeaderLines + |f.atoms|
    requires Contains(lines, l, RenderFrame(f))
    ensures ParseFrame(lines, Cursor(l, 0)) == Success((f, Cursor(next, 0)))
  {
    var ts, na, m, last := f.timestep, |f.atoms|, l + HeaderLines, next - 1;
    var head := HeaderText(ts, na);
    ContainsAppend(lines, l, head, AtomLines(f.atoms), m);
    assert lines[l + 1] == head[1] && lines[l + 3] == head[3];
    ParseIntStr(ts);
    ParseIntStr(na);
    ParseHeaderReads(lines, l, ts, na, m);
    ParseAtomsLines(lines, m, f.atoms, na, last);
    assert SkipLine(lines, Cursor(last, FieldsPerAtom)) == Cursor(next, 0);
  }

  predicate AllRenderable(frames: seq<Frame>)
  {
    forall i :: 0 <= i < |frames| ==> Renderable(frames[i])
  }

  /** Rendered frames read back in order, and reading continues after them. */
  lemma {:induction false} ParseFramesAt(lines: seq<Line>, l: nat, frames: seq<Frame>, k: nat, end: nat)
    requires k == |frames| && AllRenderable(frames) && end == l + |Render(frames)|
    requires Contains(lines, l, Render(frames))
    ensures ParseFrames(lines, Cursor(l, 0), k) == Success((frames, Cursor(end, 0)))
    decreases k
  {
    if k == 0 {
      assert Render(frames) == [];
    } else {
      var f, rest := frames[0], frames[1..];
      var next := l + |RenderFrame(f)|;
      RenderedFramesSplit(lines, l, frames);
      ParseFrameAt(lines, l, f, next);
      ParseFramesAt(lines, next, rest, k - 1, end);
      RepeatCons(FrameReader(lines), Cursor(l, 0), k, f, Cursor(next, 0), rest, Cursor(end, 0));
      assert [f] + rest == frames;
    }
  }

  /** The text of frames is the first frame's text followed by the rest's. */
  lemma RenderedFramesSplit(lines: seq<Line>, l: nat, frames: seq<Frame>)
    requires frames != [] && AllRenderable(frames)
    requires Contains(lines, l, Render(frames))
    ensures Renderable(frames[0]) && AllRenderable(frames[1..])
    ensures Contains(lines, l, RenderFrame(frames[0]))
    ensures Contains(lines, l + |RenderFrame(frames[0])|, Render(frames[1..]))
    ensures |Render(frames)| == |RenderFrame(frames[0])| + |Render(frames[1..])|
  {
    var rest := frames[1..];
    ContainsAppend(lines, l, RenderFrame(frames[0]), Render(rest), l + |RenderFrame(frames[0])|);
    forall i | 0 <= i < |rest|
      ensures Renderable(rest[i])
    {
      assert rest[i] == frames[1 + i];
    }
  }

  /** A file that begins with the text of `nTimeSteps` renderable frames
      reads back as those frames, whatever follows them. */
  lemma DumpRoundTrip(lines: seq<Line>, frames: seq<Frame>)
    requires |frames| == NTimeSteps && AllRenderable(frames)
    requires Contains(lines, 0, Render(frames))
    ensures ParseDump(lines) == Success(frames)
  {
    ParseFramesAt(lines, 0, frames, NTimeSteps, |Render(frames)|);
  }

  /** In particular the text of the frames alone reads back as them. */
  lemma RenderParses(frames: seq<Frame>)
    requires |frames| == NTimeSteps && AllRenderable(frames)
    ensures ParseDump(Render(frames)) == Success(frames)
  {
    DumpRoundTrip(Render(frames), frames);
  }

  /** With an atom count of zero no atom is read, but the `getline` of line
      85 still discards a whole line: the first line after the header. */
  lemma ZeroAtomFrameSwallowsLine(lines: seq<Line>, l: nat, ts: int, end: nat)
    requires end == l + HeaderLines && end < |lines|
    requires IntLine(lines[l + 1], ts) && IntLine(lines[l + 3], 0)
    ensures ParseFrame(lines, Cursor(l, 0)) == Success((Frame(ts, []), Cursor(end + 1, 0)))
  {
    ParseHeaderReads(lines, l, ts, 0, end);
  }

  /** A frame without atoms followed by a line whose first token is not an
      integer: the `getline` of line 85 discards the line after the header, so
      the next header's timestep is read from the line after that. */
  lemma ZeroAtomFrameSkipsToThird(lines: seq<Line>, ts: int, bad: nat)
    requires bad == HeaderLines + 2 && bad < |lines|
    requires IntLine(lines[1], ts) && IntLine(lines[3], 0)
    requires lines[bad] != [] && ParseInt(lines[bad][0]).None?
    ensures ParseDump(lines) == Failure(NotAnInteger(lines[bad][0]))
  {
    ZeroAtomFrameSwallowsLine(lines, 0, ts, HeaderLines);
    ParseHeaderRejectsTimestep(lines, HeaderLines + 1);
    assert FrameReader(lines)(Cursor(HeaderLines + 1, 0)) == Failure(NotAnInteger(lines[bad][0]));
  }

  /** So a frame without atoms followed by any frame does not read back: the
      next frame's first line is lost, and its `>>` of the timestep meets the
      text of its third line. */
  lemma ZeroAtomFrameDerailsNext(f0: Frame, f1: Frame)
    requires f0.atoms == [] && IsInt32(f0.timestep) && Renderable(f1)
    ensures ParseDump(Render([f0, f1])) == Failure(NotAnInteger("ITEM:"))
  {
    var lines := Render([f0, f1]);
    var h0 := HeaderText(f0.timestep, 0);
    var b1 := RenderFrame(f1);
    assert Render([f1]) == b1 + [] by { assert [f1][1..] == []; }
    assert lines == h0 + b1 by { assert [f0, f1][1..] == [f1]; }
    assert lines[1] == h0[1] && lines[3] == h0[3];
    assert lines[HeaderLines + 2] == b1[2];
    ParseIntStr(f0.timestep);
    ParseIntStr(0);
    assert ParseInt("ITEM:").None? by { assert !IsDigit("ITEM:"[0]); }
    ZeroAtomFrameSkipsToThird(lines, f0.timestep, HeaderLines + 2);
  }
}

=== FILE: gather.dfy ===
/** Result assembly of pn_readdump.c: each rank packs `(frame, value)` into
    `v_send`, MPI_Igather concatenates the packs into rank 0's `v_recv`, and
    rank 0 stores every value into `avg_vel` at the index its tag names. */
module Gather {
  import opened Results
  import opened Reduction
  import opened Schedule

  /** One rank's contribution to one round. */
  datatype Pair = Pair(frame: int, value: Float)

  /** `v_send`: the frame number converted to float, then the value (lines 136-137). */
  function Pack(p: Pair): seq<Float>
  {
    [Finite(p.frame as real), p.value]
  }

  /** `v_recv` after MPI_Igather with two floats per rank: rank i's pack at
      slots 2i and 2i+1. */
  function GatherBuffer(pairs: seq<Pair>): (buf: seq<Float>)
    ensures |buf| == 2 * |pairs|
    ensures forall i :: 0 <= i < |pairs| ==>
              buf[2 * i] == Finite(pairs[i].frame as real) && buf[2 * i + 1] == pairs[i].value
  {
    if pairs == [] then [] else GatherBuffer(pairs[..|pairs| - 1]) + Pack(pairs[|pairs| - 1])
  }

  /** C's `(int)` conversion of a float: truncation toward zero; undefined
      (None) for an infinity or NaN. */
  function Truncate(x: Float): (r: Option<int>)
    ensures x.Finite? && x.value.Floor as real == x.value ==> r == Some(x.value.Floor)
  {
    match x
    case NonFinite => None
    case Finite(v) => Some(if v >= 0.0 then v.Floor else -((-v).Floor))
  }

  /** `avg_vel[idx] = v` on an array of NREC floats, kept as the map of the
      slots written so far; None when the index falls outside the array. */
  function Store(table: map<int, Float>, nrec: nat, idx: int, v: Float): Option<map<int, Float>>
  {
    if 0 <= idx < nrec then Some(table[idx := v]) else None
  }

  /** Rank 0's loop `for (i = 0; i < n; i++) avg_vel[(int)buf[i*2]] = buf[i*2+1]`
      (lines 146-149); None when it reads outside `buf` or writes outside `avg_vel`. */
  function Collect(table: map<int, Float>, nrec: nat, buf: seq<Float>, n: nat): Option<map<int, Float>>
  {
    if n == 0 then Some(table)
    else
      match Collect(table, nrec, buf, n - 1)
      case None => None
      case Some(t) =>
        if 2 * (n - 1) + 1 >= |buf| then None
        else
          match Truncate(buf[2 * (n - 1)])
          case None => None
          case Some(idx) => Store(t, nrec, idx, buf[2 * (n - 1) + 1])
  }

  /** Line 148 as written: the loop over nprocs slots reads the two-float `v_send`. */
  function CoordinatorStepAsWritten(table: map<int, Float>, nrec: nat, vsend: seq<Float>, nprocs: nat): Option<map<int, Float>>
  {
    Collect(table, nrec, vsend, nprocs)
  }

  /** Line 148 as intended: the loop reads the gathered `v_recv`. */
  function CoordinatorStep(table: map<int, Float>, nrec: nat, pairs: seq<Pair>): Option<map<int, Float>>
  {
    Collect(table, nrec, GatherBuffer(pairs), |pairs|)
  }

  /** The pairs as a map, later pairs overriding earlier ones with the same frame. */
  function PairsMap(pairs: seq<Pair>): map<int, Float>
  {
    if pairs == [] then map[]
    else PairsMap(pairs[..|pairs| - 1])[pairs[|pairs| - 1].frame := pairs[|pairs| - 1].value]
  }

  /** The slots the pairs write are exactly their frames. */
  lemma {:induction false} PairsMapKeys(pairs: seq<Pair>)
    ensures PairsMap(pairs).Keys == set i | 0 <= i < |pairs| :: pairs[i].frame
  {
    if pairs != [] {
      var init := pairs[..|pairs| - 1];
      PairsMapKeys(init);
      assert forall i :: 0 <= i < |init| ==> init[i] == pairs[i];
    }
  }

  /** One more iteration of the coordinator loop writes slot n-1's pair. */
  lemma CollectNext(table: map<int, Float>, nrec: nat, buf: seq<Float>, n: nat, t: map<int, Float>, p: Pair)
    requires n >= 1 && 2 * (n - 1) + 1 < |buf|
    requires Collect(table, nrec, buf, n - 1) == Some(t)
    requires buf[2 * (n - 1)] == Finite(p.frame as real) && buf[2 * (n - 1) + 1] == p.value
    requires 0 <= p.frame < nrec
    ensures Collect(table, nrec, buf, n) == Some(t[p.frame := p.value])
  {
    assert Truncate(buf[2 * (n - 1)]) == Some(p.frame);
  }

  /** With the gathered buffer, the coordinator writes every rank's value at
      that rank's frame and nothing else. */
  lemma {:induction false} CollectGathered(table: map<int, Float>, nrec: nat, pairs: seq<Pair>, n: nat)
    requires n <= |pairs|
    requires forall i :: 0 <= i < |pairs| ==> 0 <= pairs[i].frame < nrec
    ensures Collect(table, nrec, GatherBuffer(pairs), n) == Some(table + PairsMap(pairs[..n]))
  {
    if n == 0 {
      assert pairs[..0] == [];
      assert table + map[] == table;
    } else {
      CollectGathered(table, nrec, pairs, n - 1);
      var p := pairs[n - 1];
      var m := PairsMap(pairs[..n - 1]);
      CollectNext(table, nrec, GatherBuffer(pairs), n, table + m, p);
      PairsMapPrefix(pairs, n);
      UnionUpdate(table, m, p.frame, p.value);
    }
  }

  /** The map of one more pair is the previous map updated at its frame. */
  lemma PairsMapPrefix(pairs: seq<Pair>, n: nat)
    requires 1 <= n <= |pairs|
    ensures PairsMap(pairs[..n]) == PairsMap(pairs[..n - 1])[pairs[n - 1].frame := pairs[n - 1].value]
  {
    assert pairs[..n][..n - 1] == pairs[..n - 1];
  }

  lemma UnionUpdate(a: map<int, Float>, b: map<int, Float>, k: int, v: Float)
    ensures (a + b)[k := v] == a + b[k := v]
  {
  }

  /** Every slot the pairs write holds a value that agrees with `value`, when
      each pair carries `value` of its own frame. */
  lemma {:induction false} PairsMapValues(pairs: seq<Pair>, value: int -> Float)
    requires forall i :: 0 <= i < |pairs| ==> pairs[i].value == value(pairs[i].frame)
    ensures forall k :: k in PairsMap(pairs) ==> PairsMap(pairs)[k] == value(k)
  {
    if pairs != [] {
      PairsMapValues(pairs[..|pairs| - 1], value);
    }
  }

  /** The as-written coordinator step fails for two or more ranks: slot 2 of a
      two-float buffer does not exist. */
  lemma {:induction false} AsWrittenOverrunsSendBuffer(table: map<int, Float>, nrec: nat, vsend: seq<Float>, nprocs: nat)
    requires |vsend| == 2 && nprocs >= 2
    ensures CoordinatorStepAsWritten(table, nrec, vsend, nprocs) == None
  {
    if nprocs > 2 {
      AsWrittenOverrunsSendBuffer(table, nrec, vsend, nprocs - 1);
    }
  }

  /** With one rank, `v_send` is the gathered buffer and the typo is harmless. */
  lemma AsWrittenAgreesForOneRank(table: map<int, Float>, nrec: nat, p: Pair)
    ensures CoordinatorStepAsWritten(table, nrec, Pack(p), 1) == CoordinatorStep(table, nrec, [p])
  {
    assert [p][..0] == [];
    assert GatherBuffer([p]) == Pack(p);
  }

  /** Round `round`'s pairs, one per rank in rank order. */
  function RoundPairs(sends: seq<seq<Pair>>, round: nat): (r: seq<Pair>)
    requires forall k :: 0 <= k < |sends| ==> round < |sends[k]|
    ensures |r| == |sends|
    ensures forall k :: 0 <= k < |sends| ==> r[k] == sends[k][round]
  {
    seq(|sends|, k requires 0 <= k < |sends| => sends[k][round])
  }

  /** Rank 0's `avg_vel` after the first `rounds` rounds, with the corrected
      coordinator that reads the gathered buffer; `sends[k]` lists what rank k
      sent, round by round. */
  function TableAfter(sends: seq<seq<Pair>>, nrec: nat, rounds: nat): Option<map<int, Float>>
    requires forall k :: 0 <= k < |sends| ==> rounds <= |sends[k]|
  {
    if rounds == 0 then Some(map[])
    else
      match TableAfter(sends, nrec, rounds - 1)
      case None => None
      case Some(t) => CoordinatorStep(t, nrec, RoundPairs(sends, rounds - 1))
  }

  /** What rank k sends when it completes its schedule: round t carries frame
      q*k + t and that frame's value. */
  function ScheduledSends(nrec: nat, nprocs: nat, rank: nat, value: int -> Float): (r: seq<Pair>)
    requires nprocs >= 1
    ensures |r| == Share(nrec, nprocs)
    ensures forall t :: 0 <= t < |r| ==>
              r[t] == Pair(Slot(Share(nrec, nprocs), rank, t), value(Slot(Share(nrec, nprocs), rank, t)))
  {
    var fs := Frames(nrec, nprocs, rank);
    seq(|fs|, t requires 0 <= t < |fs| => Pair(fs[t], value(fs[t])))
  }

  /** Every rank of the group has completed its schedule: rank k's round t
      carried frame q*k + t and that frame's value. */
  predicate Scheduled(sends: seq<seq<Pair>>, nrec: nat, nprocs: nat, value: int -> Float)
    requires nprocs >= 1
  {
    && |sends| == nprocs
    && (forall k :: 0 <= k < nprocs ==> |sends[k]| == Share(nrec, nprocs))
    && forall k, t :: 0 <= k < nprocs && 0 <= t < |sends[k]| ==>
         sends[k][t] == Pair(Slot(Share(nrec, nprocs), k, t), value(Slot(Share(nrec, nprocs), k, t)))
  }

  /** Index `q*k + t` of avg_vel: round t of rank k. */
  function Slot(q: nat, k: int, t: int): int
  {
    q * k + t
  }

  /** Indices written after `rounds` rounds: { k*q + t | k < nprocs, t < rounds }. */
  function Filled(q: nat, nprocs: nat, rounds: nat): set<int>
  {
    set k, t | 0 <= k < nprocs && 0 <= t < rounds :: Slot(q, k, t)
  }

  lemma {:induction false} FilledStep(q: nat, nprocs: nat, rounds: nat, pairs: seq<Pair>)
    requires |pairs| == nprocs
    requires forall k :: 0 <= k < nprocs ==> pairs[k].frame == Slot(q, k, rounds)
    ensures Filled(q, nprocs, rounds + 1) == Filled(q, nprocs, rounds) + PairsMap(pairs).Keys
  {
    var before, after, keys := Filled(q, nprocs, rounds), Filled(q, nprocs, rounds + 1), PairsMap(pairs).Keys;
    PairsMapKeys(pairs);
    forall x | x in after
      ensures x in before + keys
    {
      var k, t :| 0 <= k < nprocs && 0 <= t < rounds + 1 && x == Slot(q, k, t);
      if t == rounds {
        assert x == pairs[k].frame;
      } else {
        assert x in before;
      }
    }
    forall x | x in keys
      ensures x in after
    {
      var k :| 0 <= k < |pairs| && pairs[k].frame == x;
      assert x == Slot(q, k, rounds);
    }
    forall x | x in before
      ensures x in after
    {
      var k, t :| 0 <= k < nprocs && 0 <= t < rounds && x == Slot(q, k, t);
      assert 0 <= t < rounds + 1;
    }
  }

  /** Round r of a completed schedule: rank k sends frame q*k + r and its value. */
  lemma RoundPairsOfSchedule(nrec: nat, nprocs: nat, sends: seq<seq<Pair>>, value: int -> Float, r: nat)
    requires nprocs >= 1 && Scheduled(sends, nrec, nprocs, value)
    requires r < Share(nrec, nprocs)
    ensures forall k :: 0 <= k < nprocs ==>
              RoundPairs(sends, r)[k] == Pair(Slot(Share(nrec, nprocs), k, r), value(Slot(Share(nrec, nprocs), k, r)))
  {
  }

  /** Round r of a completed schedule writes only inside avg_vel's NREC slots. */
  lemma RoundFramesInRange(nrec: nat, nprocs: nat, sends: seq<seq<Pair>>, value: int -> Float, r: nat)
    requires nprocs >= 1 && Scheduled(sends, nrec, nprocs, value)
    requires r < Share(nrec, nprocs)
    ensures forall k :: 0 <= k < |RoundPairs(sends, r)| ==> 0 <= RoundPairs(sends, r)[k].frame < nrec
  {
    var q := Share(nrec, nprocs);
    forall k | 0 <= k < nprocs
      ensures 0 <= Slot(q, k, r) < nrec
    {
      assert Frames(nrec, nprocs, k)[r] == Slot(q, k, r);
      FramesWithinRecords(nrec, nprocs, k, Slot(q, k, r));
    }
  }

  /** A table that is present, written at exactly `keys`, each with its own value. */
  predicate Holds(table: Option<map<int, Float>>, keys: set<int>, value: int -> Float)
  {
    && table.Some?
    && table.value.Keys == keys
    && forall i :: i in table.value ==> table.value[i] == value(i)
  }

  /** One round of a completed schedule extends a table holding the first
      `r` rounds' values to one holding the first r + 1 rounds' values. */
  lemma TableStep(nrec: nat, nprocs: nat, t: map<int, Float>, pairs: seq<Pair>, value: int -> Float, r: nat)
    requires nprocs >= 1 && |pairs| == nprocs
    requires forall k :: 0 <= k < nprocs ==>
               pairs[k] == Pair(Slot(Share(nrec, nprocs), k, r), value(Slot(Share(nrec, nprocs), k, r)))
    requires Holds(Some(t), Filled(Share(nrec, nprocs), nprocs, r), value)
    ensures Holds(Some(t + PairsMap(pairs)), Filled(Share(nrec, nprocs), nprocs, r + 1), value)
  {
    PairsMapValues(pairs, value);
    FilledStep(Share(nrec, nprocs), nprocs, r, pairs);
  }

  /** Round `round` of the coordinator, when every frame of the round lies in avg_vel. */
  lemma TableAfterNext(nrec: nat, sends: seq<seq<Pair>>, round: nat)
    requires forall k :: 0 <= k < |sends| ==> round < |sends[k]|
    requires TableAfter(sends, nrec, round).Some?
    requires forall k :: 0 <= k < |sends| ==> 0 <= RoundPairs(sends, round)[k].frame < nrec
    ensures TableAfter(sends, nrec, round + 1)
            == Some(TableAfter(sends, nrec, round).value + PairsMap(RoundPairs(sends, round)))
  {
    var pairs := RoundPairs(sends, round);
    CollectGathered(TableAfter(sends, nrec, round).value, nrec, pairs, |pairs|);
    assert pairs[..|pairs|] == pairs;
  }

  /** Rounds 0..rounds-1 of a completed schedule, one round at a time. */
  lemma ScheduleRound(nrec: nat, nprocs: nat, sends: seq<seq<Pair>>, value: int -> Float, round: nat)
    requires nprocs >= 1 && Scheduled(sends, nrec, nprocs, value)
    requires round < Share(nrec, nprocs)
    requires Holds(TableAfter(sends, nrec, round), Filled(Share(nrec, nprocs), nprocs, round), value)
    ensures Holds(TableAfter(sends, nrec, round + 1), Filled(Share(nrec, nprocs), nprocs, round + 1), value)
  {
    RoundFramesInRange(nrec, nprocs, sends, value, round);
    TableAfterNext(nrec, sends, round);
    RoundPairsOfSchedule(nrec, nprocs, sends, value, round);
    TableStep(nrec, nprocs, TableAfter(sends, nrec, round).value, RoundPairs(sends, round), value, round);
  }

  /** After `rounds` rounds of a schedule every rank completes, rank 0's table
      holds exactly the indices { k*q + t | k < nprocs, t < rounds }, each with
      its own frame's value. */
  lemma {:induction false} TableAfterSchedule(nrec: nat, nprocs: nat, sends: seq<seq<Pair>>, value: int -> Float, rounds: nat)
    requires nprocs >= 1 && Scheduled(sends, nrec, nprocs, value)
    requires rounds <= Share(nrec, nprocs)
    ensures Holds(TableAfter(sends, nrec, rounds), Filled(Share(nrec, nprocs), nprocs, rounds), value)
  {
    if rounds == 0 {
      assert Filled(Share(nrec, nprocs), nprocs, 0) == {};
    } else {
      TableAfterSchedule(nrec, nprocs, sends, value, rounds - 1);
      ScheduleRound(nrec, nprocs, sends, value, rounds - 1);
    }
  }

  /** Round t of rank k writes inside the prefix [0, q*nprocs). */
  lemma SlotInPrefix(q: nat, nprocs: nat, k: int, t: int)
    requires 0 <= k < nprocs && 0 <= t < q
    ensures 0 <= Slot(q, k, t) < q * nprocs
  {
    assert 0 <= q * k;
    assert q * (k + 1) == q * k + q;
    MulMonotone(q, k + 1, nprocs);
  }

  /** Every index of the prefix [0, q*nprocs) is the slot of round x % q of rank x / q. */
  lemma PrefixIsSlot(q: nat, nprocs: nat, x: int)
    requires 0 <= x < q * nprocs
    ensures q > 0 && 0 <= x / q < nprocs && 0 <= x % q < q && x == Slot(q, x / q, x % q)
  {
    var k := x / q;
    if k >= nprocs {
      MulMonotone(q, nprocs, k);
    }
  }

  /** After all q rounds the filled indices are exactly the prefix [0, q*nprocs). */
  lemma FilledAllRounds(q: nat, nprocs: nat, x: int)
    ensures x in Filled(q, nprocs, q) <==> 0 <= x < q * nprocs
  {
    if x in Filled(q, nprocs, q) {
      var k, t :| 0 <= k < nprocs && 0 <= t < q && x == Slot(q, k, t);
      SlotInPrefix(q, nprocs, k, t);
    }
    if 0 <= x < q * nprocs {
      PrefixIsSlot(q, nprocs, x);
    }
  }

  lemma FilledTwoByOne(x: int)
    ensures x in Filled(2, 2, 1) <==> x == 0 || x == 2
  {
    if x in Filled(2, 2, 1) {
      var k, t :| 0 <= k < 2 && 0 <= t < 1 && x == Slot(2, k, t);
    }
    if x == 0 {
      assert x == Slot(2, 0, 0);
    } else if x == 2 {
      assert x == Slot(2, 1, 0);
    }
  }

  lemma FilledTwoByTwo(x: int)
    ensures x in Filled(2, 2, 2) <==> 0 <= x < 4
  {
    if x in Filled(2, 2, 2) {
      var k, t :| 0 <= k < 2 && 0 <= t < 2 && x == Slot(2, k, t);
    }
    if 0 <= x < 4 {
      assert x == Slot(2, x / 2, x % 2);
    }
  }

  /** Two ranks, four frames (q = 2): round 0 fills {0, 2}; round 1 completes {0, 1, 2, 3}. */
  lemma TwoRanksFourFrames()
    ensures Share(4, 2) == 2
    ensures Filled(2, 2, 1) == {0, 2}
    ensures Filled(2, 2, 2) == {0, 1, 2, 3}
  {
    forall x
      ensures x in Filled(2, 2, 1) <==> x in {0, 2}
    {
      FilledTwoByOne(x);
    }
    forall x
      ensures x in Filled(2, 2, 2) <==> x in {0, 1, 2, 3}
    {
      FilledTwoByTwo(x);
    }
  }
}

=== FILE: readdump.dfy ===
/** One rank's run of pn_readdump.c's `main`, sequentially: the ten checked
    setup calls, two checked collective reads per round of its schedule, the
    final close, and the CHECK_ERR macro that counts the first failing call in
    `nerrs` and jumps to `fn_exit`. The PnetCDF library is an oracle (`Storage`)
    that reports a return code for every call and the velocities of the dump. */
module ReadDump {
  import opened Results
  import opened Schedule
  import opened Reduction
  import opened Gather

  /** NC_NOERR. */
  const NoErr: int := 0

  datatype Dim = FrameDim | AtomDim | SpatialDim

  datatype Var = Velocities | Coordinates | Type | Id

  /** Values per atom of a variable: a vector for velocities and coordinates,
      one value for type and id. Its buffer (lines 95-98) holds that many
      values per slot of `local_size`. */
  function PerAtom(v: Var): nat
  {
    if v.Velocities? || v.Coordinates? then 3 else 1
  }

  /** The extents of each variable in the dump file. */
  function Shape(v: Var, nrec: nat, natoms: nat): (r: seq<nat>)
    ensures |r| == if PerAtom(v) == 3 then 3 else 2
  {
    if PerAtom(v) == 3 then VectorShape(nrec, natoms) else ScalarShape(nrec, natoms)
  }

  /** The library calls whose return code CHECK_ERR inspects. */
  datatype Call =
    | Open
    | InqDimId(dim: Dim)
    | InqDimLen(dim: Dim)
    | InqVarId(v: Var)
    | Get(v: Var, window: Window)
    | Close

  /** The dump file as the library reports it: the code each call returns, the
      lengths of the frame and atom dimensions, and the velocity of atom `a`
      in frame `f`. */
  datatype Storage = Storage(status: Call -> int, nrec: nat, natoms: nat, velocity: (int, int) -> Vec)

  /** The calls issued, in order, and the final `nerrs`. */
  datatype Outcome = Outcome(issued: seq<Call>, nerrs: nat)

  /** Reference semantics of a sequence of calls each followed by CHECK_ERR:
      issue them in order; the first one that fails is counted and nothing
      after it runs. */
  function Execute(plan: seq<Call>, status: Call -> int): (r: Outcome)
    ensures r.nerrs <= 1
    ensures |r.issued| <= |plan|
  {
    if plan == [] then Outcome([], 0)
    else if status(plan[0]) != NoErr then Outcome([plan[0]], 1)
    else
      var rest := Execute(plan[1..], status);
      Outcome([plan[0]] + rest.issued, rest.nerrs)
  }

  /** CHECK_ERR's short circuit: the calls issued are a prefix of the plan;
      every one of them succeeded except a failing last one, which was
      counted; with no failure the whole plan ran. */
  lemma {:induction false} ExecuteShortCircuits(plan: seq<Call>, status: Call -> int)
    ensures var r := Execute(plan, status);
            && r.issued == plan[..|r.issued|]
            && (r.nerrs == 0 <==> forall i :: 0 <= i < |plan| ==> status(plan[i]) == NoErr)
            && (r.nerrs == 0 ==> r.issued == plan)
            && (r.nerrs == 1 ==> |r.issued| >= 1 && status(r.issued[|r.issued| - 1]) != NoErr)
            && (forall i :: 0 <= i < |r.issued| - r.nerrs ==> status(r.issued[i]) == NoErr)
  {
    if plan != [] && status(plan[0]) == NoErr {
      ExecuteShortCircuits(plan[1..], status);
      var rest := Execute(plan[1..], status);
      assert forall i :: 1 <= i < |plan| ==> plan[i] == plan[1..][i - 1];
      assert forall i :: 1 <= i < 1 + |rest.issued| ==> ([plan[0]] + rest.issued)[i] == rest.issued[i - 1];
    }
  }

  /** Lines 66-91: open, three dimension ids, two dimension lengths, four variable ids. */
  function Prologue(): seq<Call>
  {
    [Open, InqDimId(FrameDim), InqDimId(AtomDim), InqDimId(SpatialDim),
     InqDimLen(FrameDim), InqDimLen(AtomDim),
     InqVarId(Velocities), InqVarId(Coordinates), InqVarId(Type), InqVarId(Id)]
  }

  /** Lines 124-126: one round reads the velocities, then the ids, of its frame. */
  function RoundCalls(frame: int, natoms: nat): seq<Call>
  {
    [Get(Velocities, ReadWindow(frame, natoms)), Get(Id, ReadWindow(frame, natoms))]
  }

  function LoopCalls(frames: seq<int>, natoms: nat): (r: seq<Call>)
    ensures |r| == 2 * |frames|
    ensures forall t :: 0 <= t < |frames| ==>
              r[2 * t] == Get(Velocities, ReadWindow(frames[t], natoms)) &&
              r[2 * t + 1] == Get(Id, ReadWindow(frames[t], natoms))
    ensures forall j :: 0 <= j < |r| ==> r[j].Get?
  {
    if frames == [] then [] else RoundCalls(frames[0], natoms) + LoopCalls(frames[1..], natoms)
  }

  /** Every checked call rank `rank` would make if none failed. */
  function Plan(s: Storage, nprocs: nat, rank: nat): seq<Call>
    requires nprocs >= 1
  {
    Prologue() + LoopCalls(Frames(s.nrec, nprocs, rank), s.natoms) + [Close]
  }

  /** The velocities of one frame as the read at line 124 delivers them. */
  function ReadFrame(s: Storage, f: int): (r: seq<Vec>)
    ensures |r| == s.natoms
    ensures forall a :: 0 <= a < |r| ==> r[a] == s.velocity(f, a)
  {
    seq(s.natoms, a requires 0 <= a < s.natoms => s.velocity(f, a))
  }

  /** The value a rank reports for frame `f`: its mean x-velocity. */
  function FrameMean(s: Storage): int -> Float
  {
    f => MeanVX(ReadFrame(s, f))
  }

  /** The read loop (lines 121-151): calls issued, whether a CHECK_ERR fired,
      and the pair sent in each completed round. */
  datatype Loop = Loop(issued: seq<Call>, failed: bool, sends: seq<Pair>)

  /** Rounds over `frames` with the velocity buffer `velin`; each successful
      velocity read overwrites the buffer's first 3*NATOMS floats, and the
      round sums the x-slots of the first `bound` slots and divides by NATOMS
      (lines 129-135). The bound is `local_size` as written and NATOMS as
      intended. */
  function Rounds(s: Storage, frames: seq<int>, velin: seq<real>, bound: nat): (r: Loop)
    requires frames != [] ==> 3 * s.natoms <= |velin| && 3 * bound <= |velin|
    decreases |frames|
  {
    if frames == [] then Loop([], false, [])
    else
      var w := ReadWindow(frames[0], s.natoms);
      if s.status(Get(Velocities, w)) != NoErr then Loop([Get(Velocities, w)], true, [])
      else if s.status(Get(Id, w)) != NoErr then Loop([Get(Velocities, w), Get(Id, w)], true, [])
      else
        var next := Overwrite(velin, Flatten(ReadFrame(s, frames[0])));
        var rest := Rounds(s, frames[1..], next, bound);
        Loop([Get(Velocities, w), Get(Id, w)] + rest.issued, rest.failed,
             [Pair(frames[0], Divide(SumX(next, bound), s.natoms))] + rest.sends)
  }

  /** `malloc` of n floats whose contents are whatever `stale` says. */
  function Allocate(n: nat, stale: int -> real): (r: seq<real>)
    ensures |r| == n
  {
    seq(n, i => stale(i))
  }

  /** What one rank does: the calls it issued, its `nerrs`, and the pairs it
      contributed to the gathers. */
  datatype RankRun = RankRun(issued: seq<Call>, nerrs: nat, sends: seq<Pair>)

  /** Rank `rank`'s `main` as intended: a buffer of `local_size*3` floats
      without truncation or wrap-around, a reduction over the NATOMS atoms
      read, and (in `TableAfter`) a coordinator that stores the gathered
      pairs. `stale` gives the contents of the freshly allocated buffer. */
  function Run(s: Storage, nprocs: nat, rank: nat, stale: int -> real): RankRun
    requires nprocs >= 1
  {
    var setup := Execute(Prologue(), s.status);
    if setup.nerrs > 0 then RankRun(setup.issued, setup.nerrs, [])
    else
      var frames := Frames(s.nrec, nprocs, rank);
      var velin := Allocate(BufferFloats(LocalSize(s.natoms, s.nrec, nprocs)), stale);
      var loop := (if frames != [] then FrameFitsLocalBuffer(s.natoms, s.nrec, nprocs); Rounds(s, frames, velin, s.natoms)
                   else Rounds(s, frames, velin, s.natoms));
      if loop.failed then RankRun(setup.issued + loop.issued, 1, loop.sends)
      else if s.status(Close) != NoErr then RankRun(setup.issued + loop.issued + [Close], 1, loop.sends)
      else RankRun(setup.issued + loop.issued + [Close], 0, loop.sends)
  }

  /** `return (nerrs > 0)` at line 177. */
  function ExitStatus(nerrs: nat): (code: int)
    ensures code == 0 || code == 1
    ensures code == 0 <==> nerrs == 0
  {
    if nerrs > 0 then 1 else 0
  }

  /** Running two call sequences back to back: the second starts only when
      the first raised no error. */
  lemma {:induction false} ExecuteAppend(a: seq<Call>, b: seq<Call>, status: Call -> int)
    ensures Execute(a + b, status) ==
            if Execute(a, status).nerrs > 0 then Execute(a, status)
            else Outcome(a + Execute(b, status).issued, Execute(b, status).nerrs)
  {
    if a == [] {
      assert a + b == b;
    } else {
      assert (a + b)[0] == a[0];
      assert (a + b)[1..] == a[1..] + b;
      if status(a[0]) == NoErr {
        ExecuteAppend(a[1..], b, status);
        var eb := Execute(b, status);
        assert [a[0]] + (a[1..] + eb.issued) == a + eb.issued;
      }
    }
  }

  /** The read loop issues exactly the calls its plan would under CHECK_ERR. */
  lemma {:induction false} RoundsFollowPlan(s: Storage, frames: seq<int>, velin: seq<real>, bound: nat)
    requires frames != [] ==> 3 * s.natoms <= |velin| && 3 * bound <= |velin|
    ensures Execute(LoopCalls(frames, s.natoms), s.status)
            == Outcome(Rounds(s, frames, velin, bound).issued, if Rounds(s, frames, velin, bound).failed then 1 else 0)
  {
    if frames != [] {
      var w := ReadWindow(frames[0], s.natoms);
      var rc := RoundCalls(frames[0], s.natoms);
      ExecuteAppend(rc, LoopCalls(frames[1..], s.natoms), s.status);
      assert rc[1..] == [Get(Id, w)];
      assert rc[1..][1..] == [];
      if s.status(Get(Velocities, w)) == NoErr && s.status(Get(Id, w)) == NoErr {
        RoundsFollowPlan(s, frames[1..], Overwrite(velin, Flatten(ReadFrame(s, frames[0]))), bound);
      }
    }
  }

  /** Three call sequences back to back under CHECK_ERR. */
  lemma ExecuteThree(a: seq<Call>, b: seq<Call>, c: seq<Call>, status: Call -> int)
    ensures var ea, eb, ec := Execute(a, status), Execute(b, status), Execute(c, status);
            Execute(a + b + c, status) ==
            if ea.nerrs > 0 then ea
            else if eb.nerrs > 0 then Outcome(a + eb.issued, eb.nerrs)
            else Outcome(a + b + ec.issued, ec.nerrs)
  {
    ExecuteAppend(a + b, c, status);
    ExecuteAppend(a, b, status);
  }

  /** A single call under CHECK_ERR. */
  lemma ExecuteOne(c: Call, status: Call -> int)
    ensures Execute([c], status) == Outcome([c], if status(c) == NoErr then 0 else 1)
  {
    assert [c][1..] == [];
  }

  /** A rank's run is its plan executed under CHECK_ERR. */
  lemma RunFollowsPlan(s: Storage, nprocs: nat, rank: nat, stale: int -> real)
    requires nprocs >= 1
    ensures Execute(Plan(s, nprocs, rank), s.status)
            == Outcome(Run(s, nprocs, rank, stale).issued, Run(s, nprocs, rank, stale).nerrs)
  {
    var frames := Frames(s.nrec, nprocs, rank);
    var loopCalls := LoopCalls(frames, s.natoms);
    var setup := Execute(Prologue(), s.status);
    var r := Run(s, nprocs, rank, stale);
    var e := Execute(Plan(s, nprocs, rank), s.status);
    ExecuteThree(Prologue(), loopCalls, [Close], s.status);
    assert Plan(s, nprocs, rank) == Prologue() + loopCalls + [Close];
    if setup.nerrs > 0 {
      assert e == setup;
      assert r == RankRun(setup.issued, setup.nerrs, []);
    } else {
      ExecuteShortCircuits(Prologue(), s.status);
      var velin := Allocate(BufferFloats(LocalSize(s.natoms, s.nrec, nprocs)), stale);
      if frames != [] {
        FrameFitsLocalBuffer(s.natoms, s.nrec, nprocs);
      }
      RoundsFollowPlan(s, frames, velin, s.natoms);
      var loop := Rounds(s, frames, velin, s.natoms);
      ExecuteOne(Close, s.status);
      if loop.failed {
        assert e == Outcome(Prologue() + loop.issued, 1);
        assert r == RankRun(setup.issued + loop.issued, 1, loop.sends);
      } else {
        ExecuteShortCircuits(loopCalls, s.status);
        assert e == Outcome(Prologue() + loopCalls + [Close], if s.status(Close) == NoErr then 0 else 1);
        assert r.issued == Prologue() + loopCalls + [Close];
      }
    }
  }

  /** The exit status is 1 exactly when some checked call of the plan failed;
      the calls issued are a prefix of the plan, and all but a failing last
      one succeeded. */
  lemma ExitStatusReportsFailure(s: Storage, nprocs: nat, rank: nat, stale: int -> real)
    requires nprocs >= 1
    ensures var r, p := Run(s, nprocs, rank, stale), Plan(s, nprocs, rank);
            && (ExitStatus(r.nerrs) == 1 <==> exists i :: 0 <= i < |p| && s.status(p[i]) != NoErr)
            && (ExitStatus(r.nerrs) == 1 <==> exists i :: 0 <= i < |r.issued| && s.status(r.issued[i]) != NoErr)
            && |r.issued| <= |p| && r.issued == p[..|r.issued|]
  {
    var r, p := Run(s, nprocs, rank, stale), Plan(s, nprocs, rank);
    RunFollowsPlan(s, nprocs, rank, stale);
    var e := Execute(p, s.status);
    assert e.issued == r.issued && e.nerrs == r.nerrs;
    ExecuteShortCircuits(p, s.status);
    if r.nerrs > 0 {
      var last := |r.issued| - 1;
      assert s.status(r.issued[last]) != NoErr;
      assert r.issued[last] == p[last];
    }
  }

  /** The close (line 155) is issued exactly when every earlier checked call
      succeeded. */
  lemma CloseOnlyAfterSuccess(s: Storage, nprocs: nat, rank: nat, stale: int -> real)
    requires nprocs >= 1
    ensures var p := Plan(s, nprocs, rank);
            Close in Run(s, nprocs, rank, stale).issued <==>
            forall i :: 0 <= i < |p| - 1 ==> s.status(p[i]) == NoErr
  {
    var p := Plan(s, nprocs, rank);
    var r := Run(s, nprocs, rank, stale);
    RunFollowsPlan(s, nprocs, rank, stale);
    var e := Execute(p, s.status);
    assert e.issued == r.issued && e.nerrs == r.nerrs;
    PlanClosesOnce(s, nprocs, rank);
    ExecuteShortCircuits(p, s.status);
    if forall i :: 0 <= i < |p| - 1 ==> s.status(p[i]) == NoErr {
      if e.nerrs == 1 {
        assert e.issued[|e.issued| - 1] == p[|e.issued| - 1];
      }
      assert r.issued[|p| - 1] == Close;
    }
    if Close in r.issued {
      var k :| 0 <= k < |r.issued| && r.issued[k] == Close;
      assert r.issued[k] == p[k];
      forall i | 0 <= i < |p| - 1
        ensures s.status(p[i]) == NoErr
      {
        assert r.issued[i] == p[i];
      }
    }
  }

  /** The plan closes the file once, as its last call. */
  lemma PlanClosesOnce(s: Storage, nprocs: nat, rank: nat)
    requires nprocs >= 1
    ensures var p := Plan(s, nprocs, rank);
            |p| >= 1 && p[|p| - 1] == Close && forall i :: 0 <= i < |p| - 1 ==> p[i] != Close
  {
    var p := Plan(s, nprocs, rank);
    var loopCalls := LoopCalls(Frames(s.nrec, nprocs, rank), s.natoms);
    assert |Prologue()| == 10;
    assert p == Prologue() + loopCalls + [Close];
    forall i | 0 <= i < |p| - 1
      ensures p[i] != Close
    {
      if i >= 10 {
        assert p[i] == loopCalls[i - 10];
      } else {
        assert p[i] == Prologue()[i];
        assert Close !in Prologue();
      }
    }
  }

  /** Each completed round sends its frame and that frame's mean x-velocity,
      whatever the buffer held before; a failed round sends nothing and ends
      the loop. */
  lemma {:induction false} RoundsSendMeans(s: Storage, frames: seq<int>, velin: seq<real>)
    requires frames != [] ==> 3 * s.natoms <= |velin|
    ensures var r := Rounds(s, frames, velin, s.natoms);
            && |r.sends| <= |frames|
            && (forall t :: 0 <= t < |r.sends| ==> r.sends[t] == Pair(frames[t], FrameMean(s)(frames[t])))
            && (r.failed <==> |r.sends| < |frames|)
            && (!r.failed ==> |r.issued| == 2 * |frames|)
  {
    if frames != [] {
      var w := ReadWindow(frames[0], s.natoms);
      if s.status(Get(Velocities, w)) == NoErr && s.status(Get(Id, w)) == NoErr {
        var atoms := ReadFrame(s, frames[0]);
        var next := Overwrite(velin, Flatten(atoms));
        ReduceFrameIsMean(atoms, velin);
        RoundsSendMeans(s, frames[1..], next);
        var rest := Rounds(s, frames[1..], next, s.natoms);
        assert forall t :: 1 <= t < 1 + |rest.sends| ==>
          ([Pair(frames[0], Divide(SumX(next, s.natoms), s.natoms))] + rest.sends)[t] == rest.sends[t - 1];
      }
    }
  }

  /** A rank whose exit status is 0 passed the setup, completed its loop and closed the file. */
  lemma CompletedRunShape(s: Storage, nprocs: nat, rank: nat, stale: int -> real)
    requires nprocs >= 1
    requires ExitStatus(Run(s, nprocs, rank, stale).nerrs) == 0
    ensures var frames := Frames(s.nrec, nprocs, rank);
            && (frames != [] ==> 3 * s.natoms <= BufferFloats(LocalSize(s.natoms, s.nrec, nprocs)))
            && var loop := Rounds(s, frames, Allocate(BufferFloats(LocalSize(s.natoms, s.nrec, nprocs)), stale), s.natoms);
               && !loop.failed
               && Run(s, nprocs, rank, stale) == RankRun(Prologue() + loop.issued + [Close], 0, loop.sends)
  {
    var frames := Frames(s.nrec, nprocs, rank);
    var setup := Execute(Prologue(), s.status);
    assert setup.nerrs == 0;
    ExecuteShortCircuits(Prologue(), s.status);
    if frames != [] {
      FrameFitsLocalBuffer(s.natoms, s.nrec, nprocs);
    }
  }

  /** A rank whose exit status is 0 sent frame q*rank + t with that frame's
      mean in round t, for every round of its schedule. */
  lemma CompletedRunSends(s: Storage, nprocs: nat, rank: nat, stale: int -> real)
    requires nprocs >= 1
    requires ExitStatus(Run(s, nprocs, rank, stale).nerrs) == 0
    ensures Run(s, nprocs, rank, stale).sends == ScheduledSends(s.nrec, nprocs, rank, FrameMean(s))
  {
    CompletedRunShape(s, nprocs, rank, stale);
    RoundsSendMeans(s, Frames(s.nrec, nprocs, rank), Allocate(BufferFloats(LocalSize(s.natoms, s.nrec, nprocs)), stale));
  }

  /** Lockstep: every rank whose exit status is 0 made the same number of
      calls, ten setup calls, two reads per round for q rounds, and the close. */
  lemma CompletedRunLockstep(s: Storage, nprocs: nat, rank: nat, stale: int -> real)
    requires nprocs >= 1
    requires ExitStatus(Run(s, nprocs, rank, stale).nerrs) == 0
    ensures |Run(s, nprocs, rank, stale).issued| == 11 + 2 * Share(s.nrec, nprocs)
    ensures |Run(s, nprocs, rank, stale).sends| == Share(s.nrec, nprocs)
  {
    CompletedRunShape(s, nprocs, rank, stale);
    RoundsSendMeans(s, Frames(s.nrec, nprocs, rank), Allocate(BufferFloats(LocalSize(s.natoms, s.nrec, nprocs)), stale));
  }

  /** The loop bound changes only the values sent: the calls issued, whether
      a CHECK_ERR fired, and the number of pairs sent are the same for any
      two bounds. */
  lemma {:induction false} RoundsBoundChangesOnlyValues(s: Storage, frames: seq<int>, velin: seq<real>, b1: nat, b2: nat)
    requires frames != [] ==> 3 * s.natoms <= |velin| && 3 * b1 <= |velin| && 3 * b2 <= |velin|
    ensures var r1, r2 := Rounds(s, frames, velin, b1), Rounds(s, frames, velin, b2);
            r1.issued == r2.issued && r1.failed == r2.failed && |r1.sends| == |r2.sends|
  {
    if frames != [] {
      var w := ReadWindow(frames[0], s.natoms);
      if s.status(Get(Velocities, w)) == NoErr && s.status(Get(Id, w)) == NoErr {
        RoundsBoundChangesOnlyValues(s, frames[1..], Overwrite(velin, Flatten(ReadFrame(s, frames[0]))), b1, b2);
      }
    }
  }

  /** The value the as-written loop sends for frame `f` when the x-slots of
      the buffer's stale tail sum to `tail`. */
  function AsWrittenValue(s: Storage, f: int, tail: real): Float
  {
    Divide(SumVX(ReadFrame(s, f)) + tail, s.natoms)
  }

  /** One as-written round: the sum over `local_size` slots after reading
      frame `f` is the frame's x-sum plus the stale tail. */
  lemma AsWrittenRound(s: Storage, f: int, velin: seq<real>, localSize: nat)
    requires |velin| == 3 * localSize && s.natoms <= localSize
    ensures Divide(SumX(Overwrite(velin, Flatten(ReadFrame(s, f))), localSize), s.natoms)
            == AsWrittenValue(s, f, StaleX(velin, s.natoms, localSize))
  {
    ReduceAsWrittenAddsStale(ReadFrame(s, f), velin, localSize);
  }

  /** As written (bound `local_size`), each completed round sends, in place
      of the mean, the frame's x-sum plus the x-slots of the buffer's stale
      tail, over NATOMS. The reads never write the tail, so it is the same
      every round. */
  lemma {:induction false} RoundsSendAsWritten(s: Storage, frames: seq<int>, velin: seq<real>, localSize: nat)
    requires |velin| == 3 * localSize && (frames != [] ==> s.natoms <= localSize)
    ensures var r := Rounds(s, frames, velin, localSize);
            && |r.sends| <= |frames|
            && forall t :: 0 <= t < |r.sends| ==>
                 r.sends[t] == Pair(frames[t], AsWrittenValue(s, frames[t], StaleX(velin, s.natoms, localSize)))
  {
    if frames != [] {
      var w := ReadWindow(frames[0], s.natoms);
      if s.status(Get(Velocities, w)) == NoErr && s.status(Get(Id, w)) == NoErr {
        var data := Flatten(ReadFrame(s, frames[0]));
        var next := Overwrite(velin, data);
        var tail := StaleX(velin, s.natoms, localSize);
        OverwriteKeepsStale(velin, data, s.natoms, localSize);
        RoundsSendAsWritten(s, frames[1..], next, localSize);
        var r, rest := Rounds(s, frames, velin, localSize), Rounds(s, frames[1..], next, localSize);
        var head := Pair(frames[0], Divide(SumX(next, localSize), s.natoms));
        assert r.sends == [head] + rest.sends;
        forall t | 0 <= t < |r.sends|
          ensures r.sends[t] == Pair(frames[t], AsWrittenValue(s, frames[t], tail))
        {
          if t == 0 {
            AsWrittenRound(s, frames[0], velin, localSize);
          } else {
            assert r.sends[t] == rest.sends[t - 1];
            assert frames[1..][t - 1] == frames[t];
          }
        }
      }
    }
  }

  /** What the as-written loop would send in place of a completed rank's
      sends: the same frames, each with its x-sum plus the stale tail of the
      freshly allocated buffer, over NATOMS. The sizes are the intended ones;
      `ProgramSizesAgree` says when the program's own sizes equal them. */
  lemma CompletedRunSendsAsWritten(s: Storage, nprocs: nat, rank: nat, stale: int -> real)
    requires nprocs >= 1
    requires ExitStatus(Run(s, nprocs, rank, stale).nerrs) == 0
    ensures var frames, localSize := Frames(s.nrec, nprocs, rank), LocalSize(s.natoms, s.nrec, nprocs);
            var velin := Allocate(BufferFloats(localSize), stale);
            && (frames != [] ==> s.natoms < localSize)
            && var r := Rounds(s, frames, velin, localSize);
               && !r.failed && |r.sends| == |frames| == Share(s.nrec, nprocs)
               && Run(s, nprocs, rank, stale).issued == Prologue() + r.issued + [Close]
               && forall t :: 0 <= t < |frames| ==>
                    r.sends[t] == Pair(frames[t], AsWrittenValue(s, frames[t], StaleX(velin, s.natoms, localSize)))
  {
    var frames, localSize := Frames(s.nrec, nprocs, rank), LocalSize(s.natoms, s.nrec, nprocs);
    var velin := Allocate(BufferFloats(localSize), stale);
    CompletedRunShape(s, nprocs, rank, stale);
    RoundsSendMeans(s, frames, velin);
    if frames != [] {
      FrameFitsLocalBuffer(s.natoms, s.nrec, nprocs);
    }
    RoundsBoundChangesOnlyValues(s, frames, velin, localSize, s.natoms);
    RoundsSendAsWritten(s, frames, velin, localSize);
  }

  /** A read of variable `v` through window `w` stays inside the variable's
      extent, delivers NATOMS values per component, and fits the variable's
      buffer of `local_size` slots (lines 94-98). */
  predicate ReadFits(v: Var, w: Window, nrec: nat, natoms: nat, localSize: nat)
  {
    && WithinExtent(w, Shape(v, nrec, natoms))
    && Elements(w, |Shape(v, nrec, natoms)|) == PerAtom(v) * natoms
    && PerAtom(v) * natoms < PerAtom(v) * localSize
  }

  /** Both reads of a round fit: 3*NATOMS floats of the NREC x NATOMS x 3
      velocities into `local_size*3` floats, NATOMS ints of the NREC x NATOMS
      ids into `local_size` ints. */
  lemma RoundReadsFit(nrec: nat, nprocs: nat, rank: nat, natoms: nat, f: int)
    requires nprocs >= 1 && rank < nprocs
    requires f in Frames(nrec, nprocs, rank)
    ensures ReadFits(Velocities, ReadWindow(f, natoms), nrec, natoms, LocalSize(natoms, nrec, nprocs))
    ensures ReadFits(Id, ReadWindow(f, natoms), nrec, natoms, LocalSize(natoms, nrec, nprocs))
  {
    WindowsWithinExtent(nrec, nprocs, rank, natoms, f);
    FramesWithinRecords(nrec, nprocs, rank, f);
    assert Share(nrec, nprocs) >= 1;
    FrameFitsLocalBuffer(natoms, nrec, nprocs);
  }

  /** Every read a rank plans stays inside its variable's extent, asks for
      one frame of it, and fits that variable's buffer. */
  lemma {:induction false} PlanReadsWithinExtent(s: Storage, nprocs: nat, rank: nat)
    requires nprocs >= 1 && rank < nprocs
    ensures var p := Plan(s, nprocs, rank);
            forall i :: 0 <= i < |p| && p[i].Get? ==>
              ReadFits(p[i].v, p[i].window, s.nrec, s.natoms, LocalSize(s.natoms, s.nrec, nprocs))
  {
    var p := Plan(s, nprocs, rank);
    var frames := Frames(s.nrec, nprocs, rank);
    var loopCalls := LoopCalls(frames, s.natoms);
    assert |Prologue()| == 10;
    assert p == Prologue() + loopCalls + [Close];
    forall i | 0 <= i < |p| && p[i].Get?
      ensures ReadFits(p[i].v, p[i].window, s.nrec, s.natoms, LocalSize(s.natoms, s.nrec, nprocs))
    {
      if i < 10 {
        assert p[i] == Prologue()[i];
        assert forall c :: c in Prologue() ==> !c.Get?;
        assert false;
      } else if i == |p| - 1 {
        assert false;
      } else {
        var j := i - 10;
        assert p[i] == loopCalls[j];
        var t := j / 2;
        assert frames[t] in frames;
        RoundReadsFit(s.nrec, nprocs, rank, s.natoms, frames[t]);
        if j == 2 * t {
          assert loopCalls[2 * t] == Get(Velocities, ReadWindow(frames[t], s.natoms));
        } else {
          assert loopCalls[2 * t + 1] == Get(Id, ReadWindow(frames[t], s.natoms));
        }
      }
    }
  }

  /** The reads a rank actually issues, up to a failure, all stay inside the
      extent and the buffer. */
  lemma RunReadsWithinExtent(s: Storage, nprocs: nat, rank: nat, stale: int -> real)
    requires nprocs >= 1 && rank < nprocs
    ensures forall c :: c in Run(s, nprocs, rank, stale).issued && c.Get? ==>
              ReadFits(c.v, c.window, s.nrec, s.natoms, LocalSize(s.natoms, s.nrec, nprocs))
  {
    var r, p := Run(s, nprocs, rank, stale), Plan(s, nprocs, rank);
    ExitStatusReportsFailure(s, nprocs, rank, stale);
    PlanReadsWithinExtent(s, nprocs, rank);
    forall c | c in r.issued && c.Get?
      ensures ReadFits(c.v, c.window, s.nrec, s.natoms, LocalSize(s.natoms, s.nrec, nprocs))
    {
      var i :| 0 <= i < |r.issued| && r.issued[i] == c;
      assert p[i] == c;
    }
  }

  /** What every rank contributed to the gathers. */
  function GroupSends(s: Storage, nprocs: nat, stale: int -> real): (r: seq<seq<Pair>>)
    requires nprocs >= 1
    ensures |r| == nprocs
    ensures forall k :: 0 <= k < nprocs ==> r[k] == Run(s, nprocs, k, stale).sends
  {
    seq(nprocs, k requires 0 <= k < nprocs => Run(s, nprocs, k, stale).sends)
  }

  /** When every rank exits with status 0, rank 0's `avg_vel` ends up holding
      the mean x-velocity of exactly the frames below NREC - NREC mod nprocs;
      the tail frames are never written. */
  lemma GroupTable(s: Storage, nprocs: nat, stale: int -> real)
    requires nprocs >= 1
    requires forall k :: 0 <= k < nprocs ==> ExitStatus(Run(s, nprocs, k, stale).nerrs) == 0
    ensures var sends := GroupSends(s, nprocs, stale);
            && (forall k :: 0 <= k < |sends| ==> |sends[k]| == Share(s.nrec, nprocs))
            && var t := TableAfter(sends, s.nrec, Share(s.nrec, nprocs));
            && t.Some?
            && (forall x :: x in t.value <==> 0 <= x < s.nrec - s.nrec % nprocs)
            && (forall x :: x in t.value ==> t.value[x] == FrameMean(s)(x))
  {
    var q := Share(s.nrec, nprocs);
    var sends := GroupSends(s, nprocs, stale);
    forall k | 0 <= k < nprocs
      ensures sends[k] == ScheduledSends(s.nrec, nprocs, k, FrameMean(s))
    {
      CompletedRunSends(s, nprocs, k, stale);
    }
    assert Scheduled(sends, s.nrec, nprocs, FrameMean(s));
    TableAfterSchedule(s.nrec, nprocs, sends, FrameMean(s), q);
    TailNeverRead(s.nrec, nprocs, 0);
    forall x
      ensures x in Filled(q, nprocs, q) <==> 0 <= x < s.nrec - s.nrec % nprocs
    {
      FilledAllRounds(q, nprocs, x);
    }
  }
}

=== FILE: reduction.dfy ===
/** Per-frame reduction of pn_readdump.c: the scratch buffer `velin`, the read
    that fills it, and the mean x-velocity sent to the coordinator. C `float`
    arithmetic is modelled exactly (as `real`); only division by zero is kept
    apart, because it yields an infinity or NaN rather than a number. */
module Reduction {
  import Schedule
  import Decimal

  /** A C `float`: a finite value, or the infinity/NaN of a division by zero. */
  datatype Float = Finite(value: real) | NonFinite

  /** One atom's velocity (or position) vector. */
  datatype Vec = Vec(x: real, y: real, z: real)

  /** The row-major layout of an atom x spatial block as the read delivers it. */
  function Flatten(atoms: seq<Vec>): (r: seq<real>)
    ensures |r| == 3 * |atoms|
    ensures forall i :: 0 <= i < |atoms| ==>
              r[3 * i] == atoms[i].x && r[3 * i + 1] == atoms[i].y && r[3 * i + 2] == atoms[i].z
  {
    if atoms == [] then []
    else Flatten(atoms[..|atoms| - 1]) + [atoms[|atoms| - 1].x, atoms[|atoms| - 1].y, atoms[|atoms| - 1].z]
  }

  /** Sum of the x components of the atoms: the reference the reduction is held to. */
  function SumVX(atoms: seq<Vec>): real
  {
    if atoms == [] then 0.0 else SumVX(atoms[..|atoms| - 1]) + atoms[|atoms| - 1].x
  }

  /** `sum / NATOMS` on floats: no number when the divisor is zero. */
  function Divide(sum: real, natoms: nat): Float
  {
    if natoms == 0 then NonFinite else Finite(sum / natoms as real)
  }

  /** Mean x-velocity of one frame's atoms. */
  function MeanVX(atoms: seq<Vec>): Float
  {
    Divide(SumVX(atoms), |atoms|)
  }

  /** `velin[0*3] + velin[1*3] + ... + velin[(n-1)*3]`. */
  function SumX(velin: seq<real>, n: nat): real
    requires 3 * n <= |velin|
  {
    if n == 0 then 0.0 else SumX(velin, n - 1) + velin[3 * (n - 1)]
  }

  /** The accumulation loop of lines 130-134 with bound `n`. Every index it
      reads, `i * 3` for `i < n`, lies inside a buffer of `3 * n` floats. */
  method SumStride(velin: seq<real>, n: nat) returns (sum: real)
    requires 3 * n <= |velin|
    ensures sum == SumX(velin, n)
  {
    sum := 0.0;
    var i := 0;
    while i < n
      invariant 0 <= i <= n
      invariant sum == SumX(velin, i)
    {
      sum := sum + velin[i * 3];
      i := i + 1;
    }
  }

  /** The reduction as written: the loop runs to `local_size` (line 131) but the
      sum is divided by NATOMS (line 135). */
  function ReduceAsWritten(velin: seq<real>, localSize: nat, natoms: nat): Float
    requires |velin| == 3 * localSize
  {
    Divide(SumX(velin, localSize), natoms)
  }

  /** The reduction as intended: the loop runs over the NATOMS atoms the read
      delivered. */
  function ReduceFrame(velin: seq<real>, natoms: nat): Float
    requires 3 * natoms <= |velin|
  {
    Divide(SumX(velin, natoms), natoms)
  }

  /** The buffer after a read that delivers `data` into its first |data| floats;
      the rest keeps whatever it held. */
  function Overwrite(velin: seq<real>, data: seq<real>): (r: seq<real>)
    requires |data| <= |velin|
    ensures |r| == |velin|
  {
    data + velin[|data|..]
  }

  lemma {:induction false} SumXOfFlatten(atoms: seq<Vec>, velin: seq<real>, n: nat)
    requires n <= |atoms| && 3 * |atoms| <= |velin|
    requires velin[..3 * |atoms|] == Flatten(atoms)
    ensures SumX(velin, n) == SumVX(atoms[..n])
  {
    if n > 0 {
      SumXOfFlatten(atoms, velin, n - 1);
      assert velin[3 * (n - 1)] == velin[..3 * |atoms|][3 * (n - 1)];
      assert atoms[..n][..n - 1] == atoms[..n - 1];
    }
  }

  /** Whatever the buffer held before, the intended reduction of a frame read
      into it is the mean x-velocity of that frame's atoms. */
  lemma {:induction false} ReduceFrameIsMean(atoms: seq<Vec>, velin: seq<real>)
    requires 3 * |atoms| <= |velin|
    ensures ReduceFrame(Overwrite(velin, Flatten(atoms)), |atoms|) == MeanVX(atoms)
  {
    var buf := Overwrite(velin, Flatten(atoms));
    assert buf[..3 * |atoms|] == Flatten(atoms);
    SumXOfFlatten(atoms, buf, |atoms|);
    assert atoms[..|atoms|] == atoms;
  }

  /** The x-slots of buffer slots `from` .. `to` - 1: what the as-written loop
      adds beyond the atoms the read delivered. */
  function StaleX(velin: seq<real>, from: nat, to: nat): real
    requires from <= to && 3 * to <= |velin|
  {
    SumX(velin, to) - SumX(velin, from)
  }

  /** Buffers that agree from float 3*from on have the same stale x-sum. */
  lemma {:induction false} StaleXAgree(a: seq<real>, b: seq<real>, from: nat, n: nat)
    requires from <= n && 3 * n <= |a| == |b|
    requires forall k :: 3 * from <= k < |a| ==> a[k] == b[k]
    ensures StaleX(a, from, n) == StaleX(b, from, n)
  {
    if n > from {
      StaleXAgree(a, b, from, n - 1);
      assert a[3 * (n - 1)] == b[3 * (n - 1)];
    }
  }

  /** A read of `from` atoms leaves the stale slots after them as they were. */
  lemma OverwriteKeepsStale(velin: seq<real>, data: seq<real>, from: nat, to: nat)
    requires |data| == 3 * from && from <= to && 3 * to <= |velin|
    ensures StaleX(Overwrite(velin, data), from, to) == StaleX(velin, from, to)
  {
    StaleXAgree(Overwrite(velin, data), velin, from, to);
  }

  /** The as-written sum over all `localSize` slots after a read of `atoms`:
      their x-sum plus the stale x-slots after them. */
  lemma AsWrittenSum(atoms: seq<Vec>, velin: seq<real>, localSize: nat)
    requires |velin| == 3 * localSize && |atoms| <= localSize
    ensures SumX(Overwrite(velin, Flatten(atoms)), localSize) == SumVX(atoms) + StaleX(velin, |atoms|, localSize)
  {
    var data := Flatten(atoms);
    var buf := Overwrite(velin, data);
    assert buf[..3 * |atoms|] == data;
    SumXOfFlatten(atoms, buf, |atoms|);
    assert atoms[..|atoms|] == atoms;
    OverwriteKeepsStale(velin, data, |atoms|, localSize);
  }

  /** As written, a round that reads `atoms` into a buffer of `localSize`
      slots sends their x-sum plus the stale x-slots after them, over NATOMS:
      the frame's mean exactly when those stale slots sum to zero. */
  lemma ReduceAsWrittenAddsStale(atoms: seq<Vec>, velin: seq<real>, localSize: nat)
    requires |velin| == 3 * localSize && |atoms| <= localSize
    ensures var v := ReduceAsWritten(Overwrite(velin, Flatten(atoms)), localSize, |atoms|);
            && v == Divide(SumVX(atoms) + StaleX(velin, |atoms|, localSize), |atoms|)
            && (|atoms| >= 1 ==> (v == MeanVX(atoms) <==> StaleX(velin, |atoms|, localSize) == 0.0))
  {
    var buf := Overwrite(velin, Flatten(atoms));
    var x, sum, stale := SumX(buf, localSize), SumVX(atoms), StaleX(velin, |atoms|, localSize);
    AsWrittenSum(atoms, velin, localSize);
    DivideOfSum(x, sum, stale, |atoms|);
    var v := ReduceAsWritten(buf, localSize, |atoms|);
    assert v == Divide(x, |atoms|);
    assert v == Divide(sum + stale, |atoms|);
    assert MeanVX(atoms) == Divide(sum, |atoms|);
  }

  /** Dividing a sum split as `sum + stale`: the same quotient, and the
      quotient of `sum` alone exactly when `stale` is 0. */
  lemma DivideOfSum(x: real, sum: real, stale: real, n: nat)
    requires x == sum + stale
    ensures Divide(x, n) == Divide(sum + stale, n)
    ensures n >= 1 ==> (Divide(x, n) == Divide(sum, n) <==> stale == 0.0)
  {
    if n >= 1 {
      DivideShift(sum, stale, n);
    }
  }

  /** Adding `b` to the dividend leaves the quotient alone exactly when `b` is 0. */
  lemma DivideShift(a: real, b: real, n: nat)
    requires n >= 1
    ensures Divide(a + b, n) == Divide(a, n) <==> b == 0.0
  {
    var d := n as real;
    assert (a + b) / d == a / d + b / d;
    assert b / d == 0.0 <==> b == 0.0;
  }

  /** The as-written reduction reads floats the read never wrote: one atom,
      NREC = 2, one rank gives local_size = 3, and the two stale slots enter
      the sum. */
  lemma ReduceAsWrittenReadsStaleFloats()
    ensures var frame := [Vec(1.0, 0.0, 0.0)];
            var buf := Overwrite([0.0, 0.0, 0.0, 5.0, 5.0, 5.0, 5.0, 5.0, 5.0], Flatten(frame));
            && |buf| == 3 * LocalSize(1, 2, 1)
            && ReduceAsWritten(buf, LocalSize(1, 2, 1), 1) == Finite(11.0)
            && ReduceFrame(buf, 1) == MeanVX(frame) == Finite(1.0)
  {
    var frame := [Vec(1.0, 0.0, 0.0)];
    var buf := Overwrite([0.0, 0.0, 0.0, 5.0, 5.0, 5.0, 5.0, 5.0, 5.0], Flatten(frame));
    assert buf == [1.0, 0.0, 0.0, 5.0, 5.0, 5.0, 5.0, 5.0, 5.0];
    assert SumX(buf, 1) == 1.0;
    assert SumX(buf, 3) == 11.0;
    SumVXSnoc([], frame[0]);
    assert [] + [frame[0]] == frame;
  }

  lemma {:induction false} SumVXAppend(a: seq<Vec>, b: seq<Vec>)
    ensures SumVX(a + b) == SumVX(a) + SumVX(b)
    decreases |b|
  {
    if b != [] {
      SumVXAppend(a, b[..|b| - 1]);
      assert (a + b)[..|a + b| - 1] == a + b[..|b| - 1];
      assert (a + b)[|a + b| - 1] == b[|b| - 1];
      assert SumVX(a + b) == SumVX(a + b[..|b| - 1]) + b[|b| - 1].x;
      assert SumVX(b) == SumVX(b[..|b| - 1]) + b[|b| - 1].x;
    } else {
      assert a + b == a;
    }
  }

  lemma {:induction false} SumVXRemove(s: seq<Vec>, i: nat)
    requires i < |s|
    ensures SumVX(s) == SumVX(s[..i] + s[i + 1..]) + s[i].x
  {
    assert s == s[..i] + [s[i]] + s[i + 1..];
    SumVXAppend(s[..i] + [s[i]], s[i + 1..]);
    SumVXAppend(s[..i], [s[i]]);
    assert ([] + [s[i]])[..0] == [];
    SumVXAppend(s[..i], s[i + 1..]);
  }

  lemma MultisetCancel<T>(x: multiset<T>, y: multiset<T>, e: T)
    requires x + multiset{e} == y + multiset{e}
    ensures x == y
  {
    assert x == (x + multiset{e}) - multiset{e};
    assert y == (y + multiset{e}) - multiset{e};
  }

  /** The sum, hence the mean, does not depend on the order of the atoms. */
  lemma {:induction false} SumVXPermutation(a: seq<Vec>, b: seq<Vec>)
    requires multiset(a) == multiset(b)
    ensures SumVX(a) == SumVX(b)
    decreases |a|
  {
    if a != [] {
      var n := |a| - 1;
      var last := a[n];
      assert a == a[..n] + [last];
      assert multiset(a) == multiset(a[..n]) + multiset{last};
      assert last in multiset(b);
      var i :| 0 <= i < |b| && b[i] == last;
      var b' := b[..i] + b[i + 1..];
      assert b == b[..i] + [b[i]] + b[i + 1..];
      assert multiset(b) == multiset(b') + multiset{last};
      MultisetCancel(multiset(a[..n]), multiset(b'), last);
      SumVXPermutation(a[..n], b');
      SumVXRemove(b, i);
    }
  }

  /** Reordering the atoms of a frame leaves its mean x-velocity unchanged. */
  lemma MeanInvariantUnderReordering(a: seq<Vec>, b: seq<Vec>)
    requires multiset(a) == multiset(b)
    ensures MeanVX(a) == MeanVX(b)
  {
    SumVXPermutation(a, b);
    assert |a| == |multiset(a)| == |multiset(b)| == |b|;
  }

  lemma SumVXSnoc(s: seq<Vec>, v: Vec)
    ensures SumVX(s + [v]) == SumVX(s) + v.x
  {
    assert (s + [v])[..|s|] == s;
  }

  /** Duplicating an atom does change the mean. */
  lemma MeanChangesUnderDuplication()
    ensures MeanVX([Vec(1.0, 0.0, 0.0), Vec(3.0, 0.0, 0.0)]) == Finite(2.0)
    ensures MeanVX([Vec(1.0, 0.0, 0.0), Vec(3.0, 0.0, 0.0), Vec(3.0, 0.0, 0.0)]) == Finite(7.0 / 3.0)
  {
    var a, b := Vec(1.0, 0.0, 0.0), Vec(3.0, 0.0, 0.0);
    SumVXSnoc([], a);
    assert [] + [a] == [a];
    SumVXSnoc([a], b);
    assert [a] + [b] == [a, b];
    SumVXSnoc([a, b], b);
    assert [a, b] + [b] == [a, b, b];
  }

  /** Three atoms with x-velocities 1, 2, 3 average to 2; a frame at rest to 0;
      no atoms gives no number. */
  lemma MeanScenario()
    ensures MeanVX([Vec(1.0, 0.0, 0.0), Vec(2.0, 0.0, 0.0), Vec(3.0, 0.0, 0.0)]) == Finite(2.0)
    ensures MeanVX([Vec(0.0, 0.0, 0.0), Vec(0.0, 0.0, 0.0), Vec(0.0, 0.0, 0.0)]) == Finite(0.0)
    ensures MeanVX([]) == NonFinite
  {
    var a, b, c := Vec(1.0, 0.0, 0.0), Vec(2.0, 0.0, 0.0), Vec(3.0, 0.0, 0.0);
    SumVXSnoc([], a);
    assert [] + [a] == [a];
    SumVXSnoc([a], b);
    assert [a] + [b] == [a, b];
    SumVXSnoc([a, b], c);
    assert [a, b] + [c] == [a, b, c];
    var o := Vec(0.0, 0.0, 0.0);
    SumVXSnoc([], o);
    assert [] + [o] == [o];
    SumVXSnoc([o], o);
    assert [o] + [o] == [o, o];
    SumVXSnoc([o, o], o);
    assert [o, o] + [o] == [o, o, o];
  }

  /** 2^32: C's conversion of an out-of-range 64-bit value to `int` keeps the
      low 32 bits on the usual two's-complement targets. */
  const Int32Modulus: int := 0x1_0000_0000

  /** `(int)x` for a 64-bit `x`, reduced into [-2^31, 2^31). */
  function ToInt32(x: int): (r: int)
    ensures Decimal.IsInt32(r)
    ensures (x - r) % Int32Modulus == 0
    ensures Decimal.IsInt32(x) ==> r == x
  {
    var m := x % Int32Modulus;
    if m > Decimal.Int32Max then m - Int32Modulus else m
  }

  /** `local_size` as written (line 94): `(int)(NATOMS * NREC / nprocs) + 1`,
      where both the cast and the `int` addition keep the low 32 bits. */
  function LocalSizeAsWritten(natoms: nat, nrec: nat, nprocs: nat): int
    requires nprocs >= 1
  {
    ToInt32(ToInt32(natoms * nrec / nprocs) + 1)
  }

  /** The float count `local_size * 3` passed to `malloc` at lines 95-96 as
      written: an `int` product, which keeps the low 32 bits. */
  function BufferFloatsAsWritten(localSize: int): int
  {
    ToInt32(localSize * 3)
  }

  /** The float count of `velin` as intended: three floats per atom slot,
      computed without wrap-around. */
  function BufferFloats(localSize: nat): nat
  {
    3 * localSize
  }

  /** `local_size` without the truncating cast. */
  function LocalSize(natoms: nat, nrec: nat, nprocs: nat): nat
    requires nprocs >= 1
  {
    natoms * nrec / nprocs + 1
  }

  /** k <= p / d whenever d * k <= p. */
  lemma DivLowerBound(p: nat, d: nat, k: nat)
    requires d >= 1 && d * k <= p
    ensures k <= p / d
  {
    assert p == d * (p / d) + p % d;
    if p / d < k {
      Schedule.MulMonotone(d, p / d + 1, k);
    }
  }

  /** Whenever a rank reads at all (NREC / nprocs >= 1), one frame of NATOMS
      atoms fits in `velin` (local_size * 3 floats) and in `idin` (local_size ints). */
  lemma {:induction false} FrameFitsLocalBuffer(natoms: nat, nrec: nat, nprocs: nat)
    requires nprocs >= 1 && Schedule.Share(nrec, nprocs) >= 1
    ensures natoms < LocalSize(natoms, nrec, nprocs)
    ensures 3 * natoms < BufferFloats(LocalSize(natoms, nrec, nprocs))
  {
    assert nrec >= nprocs;
    Schedule.MulMonotone(natoms, nprocs, nrec);
    assert nprocs * natoms == natoms * nprocs;
    DivLowerBound(natoms * nrec, nprocs, natoms);
  }

  /** Below 2^31 - 1 neither the cast nor the addition wraps, and both sizes
      agree; at 2^31 - 1 the addition already wraps to -2^31. */
  lemma LocalSizeAsWrittenAgrees(natoms: nat, nrec: nat, nprocs: nat)
    requires nprocs >= 1
    ensures LocalSizeAsWritten(natoms, nrec, nprocs) == LocalSize(natoms, nrec, nprocs)
            <==> natoms * nrec / nprocs < Decimal.Int32Max
  {
  }

  /** 10^6 atoms and 1000 frames on one rank: `local_size` = 10^9 + 1 is an
      `int`, but `local_size * 3` wraps to a negative count, while the intended
      buffer holds 3 * 10^9 + 3 floats. */
  lemma BufferFloatsWraps()
    ensures LocalSizeAsWritten(1_000_000, 1000, 1) == LocalSize(1_000_000, 1000, 1) == 1_000_000_001
    ensures BufferFloatsAsWritten(LocalSizeAsWritten(1_000_000, 1000, 1)) == 3_000_000_003 - Int32Modulus < 0
    ensures BufferFloats(LocalSize(1_000_000, 1000, 1)) == 3_000_000_003
  {
  }

  /** While `NATOMS*NREC/nprocs` stays below 2^31 - 1 and the float count
      `3*local_size` fits an int, the program's own sizes are the intended
      ones: `local_size` neither truncates nor wraps, and neither does
      `local_size * 3`. */
  lemma ProgramSizesAgree(natoms: nat, nrec: nat, nprocs: nat)
    requires nprocs >= 1 && natoms * nrec / nprocs < Decimal.Int32Max
    requires 3 * LocalSize(natoms, nrec, nprocs) <= Decimal.Int32Max
    ensures LocalSizeAsWritten(natoms, nrec, nprocs) == LocalSize(natoms, nrec, nprocs)
    ensures BufferFloatsAsWritten(LocalSizeAsWritten(natoms, nrec, nprocs)) == BufferFloats(LocalSize(natoms, nrec, nprocs))
  {
    LocalSizeAsWrittenAgrees(natoms, nrec, nprocs);
  }

  /** 2^20 atoms and 2^12 frames on one rank: the product 2^32 truncates to 0,
      so the buffer holds one atom's floats while each read delivers 2^20 atoms'. */
  lemma LocalSizeTruncates()
    ensures Schedule.Share(0x1000, 1) >= 1
    ensures LocalSizeAsWritten(0x10_0000, 0x1000, 1) == 1
    ensures LocalSize(0x10_0000, 0x1000, 1) == 0x1_0000_0001
  {
  }
}

=== FILE: results.dfy ===
/** Failure-compatible wrappers shared by the model: an optional value, and a
    value-or-error result usable with `:-`. */
module Results {

  datatype Option<+T> = None | Some(value: T)

  datatype Result<+T, +E> = Success(value: T) | Failure(error: E) {

    predicate IsFailure() {
      Failure?
    }

    function PropagateFailure<U>(): Result<U, E>
      requires Failure?
    {
      Failure(error)
    }

    function Extract(): T
      requires Success?
    {
      value
    }
  }
}

=== FILE: schedule.dfy ===
/** The timestep schedule of the parallel reader (pn_readdump.c): which frames
    rank `rank` of `nprocs` reads, in which round, and the window each read
    requests from the `velocities` and `id` variables. */
module Schedule {

  /** Frames per rank, `NREC / nprocs`. Both operands are non-negative, so C's
      truncating division and Dafny's Euclidean division agree. */
  function Share(nrec: nat, nprocs: nat): nat
    requires nprocs >= 1
  {
    nrec / nprocs
  }

  /** First frame of a rank, `NREC / nprocs * rank`. */
  function Start(nrec: nat, nprocs: nat, rank: nat): nat
    requires nprocs >= 1
  {
    Share(nrec, nprocs) * rank
  }

  /** Loop bound of a rank, `NREC / nprocs * (rank + 1)` (exclusive). */
  function End(nrec: nat, nprocs: nat, rank: nat): nat
    requires nprocs >= 1
  {
    Share(nrec, nprocs) * (rank + 1)
  }

  /** The values `for (x = lo; x < hi; x++)` visits, in order. */
  function Range(lo: int, hi: int): (r: seq<int>)
    ensures |r| == if lo <= hi then hi - lo else 0
    ensures forall j :: 0 <= j < |r| ==> r[j] == lo + j
    decreases hi - lo
  {
    if lo >= hi then [] else [lo] + Range(lo + 1, hi)
  }

  /** The frames rank `rank` reads, one per round, in round order. */
  function Frames(nrec: nat, nprocs: nat, rank: nat): (r: seq<int>)
    requires nprocs >= 1
    ensures |r| == Share(nrec, nprocs)
    ensures forall j :: 0 <= j < |r| ==> r[j] == Share(nrec, nprocs) * rank + j
  {
    Range(Start(nrec, nprocs, rank), End(nrec, nprocs, rank))
  }

  /** q * a <= q * b for a <= b: monotonicity of the partition bounds. */
  lemma MulMonotone(q: nat, a: int, b: int)
    requires a <= b
    ensures q * a <= q * b
  {
    assert q * b - q * a == q * (b - a);
  }

  /** Rank `rank` reads exactly the frames of [q*rank, q*(rank+1)). */
  lemma {:induction false} FramesAreRange(nrec: nat, nprocs: nat, rank: nat, f: int)
    requires nprocs >= 1
    ensures f in Frames(nrec, nprocs, rank) <==> Start(nrec, nprocs, rank) <= f < End(nrec, nprocs, rank)
  {
    var fs := Frames(nrec, nprocs, rank);
    var lo := Start(nrec, nprocs, rank);
    if lo <= f < End(nrec, nprocs, rank) {
      assert fs[f - lo] == f;
    }
  }

  /** The ranges of two distinct ranks share no frame. */
  lemma {:induction false} RanksDisjoint(nrec: nat, nprocs: nat, r1: nat, r2: nat, f: int)
    requires nprocs >= 1 && r1 != r2
    ensures !(f in Frames(nrec, nprocs, r1) && f in Frames(nrec, nprocs, r2))
  {
    FramesAreRange(nrec, nprocs, r1, f);
    FramesAreRange(nrec, nprocs, r2, f);
    var q := Share(nrec, nprocs);
    if r1 < r2 {
      MulMonotone(q, r1 + 1, r2);
    } else {
      MulMonotone(q, r2 + 1, r1);
    }
  }

  /** Consecutive ranks meet: rank r's loop bound is rank r+1's first frame. */
  lemma AdjacentRanksMeet(nrec: nat, nprocs: nat, rank: nat)
    requires nprocs >= 1
    ensures End(nrec, nprocs, rank) == Start(nrec, nprocs, rank + 1)
  {
  }

  /** Together the ranks read exactly the prefix [0, q*nprocs) of the frames. */
  lemma {:induction false} RanksCoverPrefix(nrec: nat, nprocs: nat, f: int)
    requires nprocs >= 1
    ensures (exists r :: 0 <= r < nprocs && f in Frames(nrec, nprocs, r))
            <==> 0 <= f < Share(nrec, nprocs) * nprocs
  {
    var q := Share(nrec, nprocs);
    if 0 <= f < q * nprocs {
      var r := f / q;
      assert q * r <= f < q * (r + 1) by {
        assert f == q * (f / q) + f % q;
      }
      assert r < nprocs by {
        if r >= nprocs {
          MulMonotone(q, nprocs, r);
        }
      }
      FramesAreRange(nrec, nprocs, r, f);
    }
    if r :| 0 <= r < nprocs && f in Frames(nrec, nprocs, r) {
      FramesAreRange(nrec, nprocs, r, f);
      MulMonotone(q, r + 1, nprocs);
    }
  }

  /** Every frame a rank requests lies in [0, NREC). */
  lemma {:induction false} FramesWithinRecords(nrec: nat, nprocs: nat, rank: nat, f: int)
    requires nprocs >= 1 && rank < nprocs
    requires f in Frames(nrec, nprocs, rank)
    ensures 0 <= f < nrec
  {
    FramesAreRange(nrec, nprocs, rank, f);
    MulMonotone(Share(nrec, nprocs), rank + 1, nprocs);
    assert Share(nrec, nprocs) * nprocs <= nrec;
  }

  /** The last `NREC mod nprocs` frames are read by no rank. */
  lemma {:induction false} TailNeverRead(nrec: nat, nprocs: nat, f: int)
    requires nprocs >= 1
    ensures Share(nrec, nprocs) * nprocs == nrec - nrec % nprocs
    ensures nrec - nrec % nprocs <= f < nrec ==>
              forall r :: 0 <= r < nprocs ==> f !in Frames(nrec, nprocs, r)
  {
    assert nrec == nprocs * (nrec / nprocs) + nrec % nprocs;
    forall r | 0 <= r < nprocs && nrec - nrec % nprocs <= f < nrec
      ensures f !in Frames(nrec, nprocs, r)
    {
      RanksCoverPrefix(nrec, nprocs, f);
    }
  }

  /** A hyperslab request as the program passes it: the `start` and `count`
      arrays, of which the library uses one entry per dimension of the
      variable read. */
  datatype Window = Window(start: seq<int>, count: seq<int>)

  /** The request of one round: start (frame, 0, 0), count (1, NATOMS, 3). */
  function ReadWindow(frame: int, natoms: nat): Window
  {
    Window([frame, 0, 0], [1, natoms, 3])
  }

  /** Extents of a frame x atom x spatial variable (velocities, coordinates). */
  function VectorShape(nrec: nat, natoms: nat): seq<nat>
  {
    [nrec, natoms, 3]
  }

  /** Extents of a frame x atom variable (id, type). */
  function ScalarShape(nrec: nat, natoms: nat): seq<nat>
  {
    [nrec, natoms]
  }

  /** A request that stays inside a variable with the given extents. */
  predicate WithinExtent(w: Window, shape: seq<nat>)
  {
    && |shape| <= |w.start| && |shape| <= |w.count|
    && forall k :: 0 <= k < |shape| ==>
         0 <= w.start[k] && 0 <= w.count[k] && w.start[k] + w.count[k] <= shape[k]
  }

  function Product(xs: seq<int>): int
  {
    if xs == [] then 1 else xs[0] * Product(xs[1..])
  }

  /** Number of values a request delivers from a variable of `dims` dimensions. */
  function Elements(w: Window, dims: nat): int
    requires dims <= |w.count|
  {
    Product(w.count[..dims])
  }

  /** Every request of every rank is inside the file's extents. From a
      velocity variable it delivers one whole frame, NATOMS * 3 values; from
      the two-dimensional id variable, NATOMS values. */
  lemma {:induction false} WindowsWithinExtent(nrec: nat, nprocs: nat, rank: nat, natoms: nat, f: int)
    requires nprocs >= 1 && rank < nprocs
    requires f in Frames(nrec, nprocs, rank)
    ensures WithinExtent(ReadWindow(f, natoms), VectorShape(nrec, natoms))
    ensures WithinExtent(ReadWindow(f, natoms), ScalarShape(nrec, natoms))
    ensures Elements(ReadWindow(f, natoms), 3) == 3 * natoms
    ensures Elements(ReadWindow(f, natoms), 2) == natoms
  {
    FramesWithinRecords(nrec, nprocs, rank, f);
    var c := ReadWindow(f, natoms).count;
    assert c[..3] == [1, natoms, 3] && c[..2] == [1, natoms];
    assert Product([3]) == 3 && Product([natoms, 3]) == natoms * 3;
    assert Product([natoms]) == natoms;
  }
}
